=== FILE: README.md ===
# Lightstreamer text-protocol client, modelled in Dafny

This project models the core of a small Python client for the Lightstreamer
push server (text protocol, "create_session / bind_session / control"). It
covers these parts:

- **Field decoding.** Each `|`-separated token of an update is decoded
  against the field's previous value: `$` is the empty text, `#` is null,
  an empty token means "unchanged", and one leading marker character is
  dropped.
- **Subscriptions.** A subscription has listeners and a per-item cache.
  An update line is split into tokens. Its item position picks the item
  with Python's list indexing. In the default mode the cache entry is
  rebuilt field by field; in "new values only" mode the non-empty raw
  tokens are reported.
- **The client's subscription table.**
  - `subscribe` takes the next key from a counter and registers the
    subscription before the ADD request.
  - `unsubscribe` removes the key only when the server answers `OK`.
  - `unsubscribe_all` walks the keys as they stood at the start.
  - Data lines are routed to the subscription their key names.
  - Control requests send only their truthy parameters, and the session
    id goes last.
- **The stream.**
  - The handshake reads `OK`, then `key:value` header lines up to a blank
    line.
  - The reader loop classifies each line. The order is: blank, `PROBE`,
    `ERROR`, `LOOP`, `SYNC ERROR`, `END`, `Preamble`, data.
  - At the end of the loop the client is either reset or rebound (LOOP),
    and a rebind increments the bind counter.

The model is functional. A client is an immutable record, and each
operation returns the new record together with what it produced: the
listener calls, the error it raised, or the key it returned. Things the
Python code reads from the network are parameters:

- the first answer line of each control request (or a transport failure);
- the raw lines of each stream connection (or a failed request).

The listener callbacks are modelled as an ordered list of
`Delivery(listener, event)` values.

Modules, in dependency order:

| module | file | content |
|---|---|---|
| `Results` | results.dfy | `Option` and `Result` |
| `Text` | text.dfy | the Python `str` operations used: `rstrip`, `strip`, `split`, `split(sep, 1)`, `join`, `int(...)`, `str(int)` |
| `FieldCodec` | field_codec.dfy | `_decode` and, as its reference, the server-side encoding |
| `Control` | control.dfy | `_encode_params`, the request parameter sets, `_control` |
| `Subscriptions` | subscription.dfy | `LightStreamerSubscription`: `add_listener`, `notify_update` |
| `Clients` | client.dfy | `LightStreamerClient`'s table: `subscribe`, `unsubscribe`, `unsubscribe_all`, `_forward_update_message`, `disconnect` |
| `Stream` | stream.dfy | `_read_from_stream`, `_handle_stream`, `connect`, `bind`, `_receive` and the rebind chain |
| `Scenarios` | scenarios.dfy | worked examples: keys 1, 2, 3; merging two updates; PROBE, END and LOOP |

Three behaviours of the code that are easy to misread:

- `disconnect` sends DESTROY and clears nothing itself. The session and
  the table are cleared by the reader when the stream ends.
- The reset at the end of `_receive` does not reset the bind counter.
- "New values only" mode hands out the raw tokens: `$x` stays `$x`, and
  `_decode` is not applied.

## Model

| member | source | states |
|---|---|---|
| FieldCodec.Decode | lightstreamer_client/__init__.py:56-69 | An empty token yields the previous value. Otherwise the result is null exactly for `#`, and a text result is the token minus at most its first character. |
| FieldCodec.DecodeTable | lightstreamer_client/__init__.py:60-69 | Row by row: `$` is empty text, `#` is null, an empty token keeps the last value, a marker plus text gives the text, and plain text is kept. Only one marker is removed (`$$` gives `$`). |
| FieldCodec.DecodeIgnoresLast | lightstreamer_client/__init__.py:64-65 | Only an empty token looks at the previous value. |
| FieldCodec.DecodeEncode | lightstreamer_client/__init__.py:56-69 | Decoding the token a server would send for a value, against any previous value, gives the value back (the encoder sends an empty token exactly when the value is unchanged). |
| Control.EncodeParams | lightstreamer_client/__init__.py:130-134 | A parameter is sent exactly when its value is truthy (non-empty text, non-zero number, `True`). Nothing is added. |
| Control.EncodeParamsIdempotent | lightstreamer_client/__init__.py:130-134 | Filtering already-filtered parameters changes nothing. |
| Control.EncodeParamsAppend | lightstreamer_client/__init__.py:130-134 | The filter keeps the order of the parameters: filtering two lists joined is the two filtered lists joined. |
| Control.SendControl | lightstreamer_client/__init__.py:156-163 | It raises exactly when there is no `SessionId` (before sending anything) or the transport fails (a missing control address counts as a transport failure; see "## Left out"). Otherwise it sends the request's truthy parameters followed by `LS_session`, and the returned line is `OK` exactly when the trimmed answer is `OK`. |
| Control.RequestParamsShape | lightstreamer_client/__init__.py:249-306 | Each request is a dictionary: no key twice, and no `LS_session`, which `_control` adds. ADD has its seven entries, the table key and the subscription's snapshot, adapter, mode, and the space-joined field and item names. DELETE has the table key and `delete`, and DESTROY only `destroy`. |
| Control.ConnectBody | lightstreamer_client/__init__.py:171-182 | The create-session body carries exactly the non-empty ones of adapter set, user and password. An anonymous connection sends neither user nor password. |
| Control.BindBody | lightstreamer_client/__init__.py:187-197 | The bind-session body is the session id, or empty when the id is empty. |
| Control.AddBodyOmitsFalsyValues | lightstreamer_client/__init__.py:265-273 | An ADD without snapshot and without data adapter sends neither parameter, but does send the table key, `add` and the mode. |
| Subscriptions.Notify | lightstreamer_client/__init__.py:110-112 | Every listener gets the event once, in registration order. |
| Subscriptions.AddListener | lightstreamer_client/__init__.py:71-72 | The listener is appended at the end and nothing else changes. |
| Subscriptions.AddListenerNotifiesLast | lightstreamer_client/__init__.py:71-72 | A listener added later is called after all earlier ones, with the same event. |
| Subscriptions.PyIndex | lightstreamer_client/__init__.py:80 | Python list indexing: defined exactly for `-len <= i < len`, with negative indices counting from the end. |
| Subscriptions.PairUp | lightstreamer_client/__init__.py:84-89 | `dict(zip(...))`, optionally dropping empty tokens. The keys are exactly the counted names, and a name's value is the token of its last counted occurrence. |
| Subscriptions.Paired | lightstreamer_client/__init__.py:89 | `zip` stops at the shorter list. |
| Subscriptions.MergeEntry | lightstreamer_client/__init__.py:89-101 | The new cache entry has exactly the paired field names. Each field's value is its token decoded against the cached value. |
| Subscriptions.NewValues | lightstreamer_client/__init__.py:82-85 | The event has exactly the fields with a non-empty token, each with its raw token. |
| Subscriptions.Tokens | lightstreamer_client/__init__.py:78 | Splitting an item line always yields at least the position token. |
| Subscriptions.TokensMeaning | lightstreamer_client/__init__.py:78 | No token contains `|`, and joining the tokens with `|` gives the line without its trailing CR and LF. |
| Subscriptions.TokensOfJoin | lightstreamer_client/__init__.py:78 | Tokens free of the bar separator and of line terminators, joined with the bar, split back into themselves. |
| Subscriptions.TokensOfItemLine | lightstreamer_client/__init__.py:78-79 | A rendered update line splits into its position token and its field tokens. |
| Subscriptions.NotifyUpdate | lightstreamer_client/__init__.py:74-112 | A non-integer position raises and an out-of-range one raises `IndexError`. On success the item is `items[pos - 1]` (Python indexing), and the listeners are kept. The default mode stores the merged entry under `pos` and reports it. New-values mode leaves the subscription unchanged. |
| Subscriptions.ItemLineUpdate | lightstreamer_client/__init__.py:74-101 | For a position between 1 and the item count, a well-formed line always succeeds, and each mode builds its values from the field tokens. |
| Subscriptions.ItemLineAt | lightstreamer_client/__init__.py:79-80 | Any position that Python indexing accepts, including 0 and negative ones, succeeds and names `item_names[pos - 1]`. |
| Subscriptions.MergeEntryDistinct | lightstreamer_client/__init__.py:89-101 | With distinct field names, each paired field holds its decoded token. An empty token keeps the cached value, and a field past the last token is dropped from the entry. |
| Subscriptions.DefaultModeUpdate | lightstreamer_client/__init__.py:87-101 | Default mode: the item's cache entry is replaced by the merged entry, other items' entries are unchanged, and the event carries the new entry. |
| Subscriptions.NewValuesModeUpdate | lightstreamer_client/__init__.py:82-85 | New-values mode: the event holds exactly the fields sent non-empty, with their raw tokens, and the cache is untouched. |
| Clients.NewClientValid | lightstreamer_client/__init__.py:118-128 | A new client has an empty table and satisfies the key invariant: every key lies in `[1, counter]`. |
| Clients.Subscribe | lightstreamer_client/__init__.py:256-278 | The counter goes up by one and the subscription is registered under the new key, whatever the answer. Nothing else changes. The call raises exactly when there is no session or the transport fails (this includes a missing control address), and otherwise returns the new key. The key invariant is kept, and the new key was unused. |
| Clients.SubscribeIgnoresReply | lightstreamer_client/__init__.py:274-278 | The server's answer to an ADD never changes the resulting table. |
| Clients.SubscribeKeyIsFresh | lightstreamer_client/__init__.py:260-261 | The new key is larger than every key already registered. |
| Clients.SendDelete | lightstreamer_client/__init__.py:285-290 | A DELETE raises exactly when there is no session or the transport fails (this includes a missing control address), and otherwise reports whether the answer was `OK`. |
| Clients.Unsubscribe | lightstreamer_client/__init__.py:280-296 | A request is sent exactly when the key is registered. The key is removed exactly when it was registered, a session exists and the answer is `OK`. Nothing else changes. It raises exactly when the request raises, a missing control address included. |
| Clients.UnsubscribeNeedsConfirmation | lightstreamer_client/__init__.py:290-294 | Without an `OK` the client is unchanged. |
| Clients.AscendingKeys | lightstreamer_client/__init__.py:302 | The keys of the table snapshot, each exactly once, in increasing order. This is the dict's insertion order, because keys come from an increasing counter. |
| Clients.DeleteInOrder | lightstreamer_client/__init__.py:302-313 | Walking the keys in order removes exactly the confirmed ones among those reached, and the first request that raises stops the walk. With no `SessionId`, the first DELETE raises the `KeyError` and nothing is removed. With a session, only a transport failure raises. |
| Clients.UnsubscribeAll | lightstreamer_client/__init__.py:298-313 | One DELETE per key registered at the start, in key order. Exactly the confirmed keys are removed, and a raise stops the walk. With no `SessionId` and a non-empty table, the first DELETE raises and the client is unchanged. Nothing but the table changes, and the key invariant is kept. |
| Clients.ForwardUpdate | lightstreamer_client/__init__.py:315-329 | `key,item` goes to the subscription under `key`, for any head `int()` accepts. A line is dropped exactly when it has no comma, its head is not an integer, or the update of a registered key fails. It is reported as unsubscribed exactly when the key is an integer not in the table. A dropped or unsubscribed line changes nothing and calls no one. A delivered update replaces only that subscription and calls its listeners with the event. The set of keys never changes. |
| Clients.Deliver | lightstreamer_client/__init__.py:324-325 | For a registered key: the line is dropped exactly when the update fails. Otherwise the subscription is replaced by its updated self and its listeners are called. |
| Clients.RoutesByHead | lightstreamer_client/__init__.py:322-327 | A line whose head, free of commas, is any text `int()` reads as `key` (`"03"`, `" 3"` included) goes to the subscription under `key`: it is delivered when the update succeeds and dropped when it fails. An unknown key is reported and changes nothing. |
| Clients.RoutesByKey | lightstreamer_client/__init__.py:322-327 | A rendered key plus `,` plus any item line reaches exactly the subscription under that key. An unknown key gives "no subscription" and a failing update is dropped. |
| Clients.Disconnect | lightstreamer_client/__init__.py:244-254 | DESTROY is attempted exactly when a stream connection is held, and the call raises exactly when that request raises. The client itself is unchanged. |
| Stream.ReadLine | lightstreamer_client/__init__.py:165-169 | A read line is empty exactly when the raw line was all whitespace. Otherwise it is a prefix of the raw line that ends in a non-space character. Everything removed after it is whitespace. |
| Stream.Classify | lightstreamer_client/__init__.py:340-379 | A line is blank exactly when it is all whitespace, and is `PROBE` exactly when it equals `PROBE`. A data line is the line itself and does not start with `ERROR`, `LOOP` or `END`. Any other non-blank line that starts with none of `ERROR`, `LOOP`, `SYNC ERROR`, `END` and `Preamble` is data. |
| Stream.ClassifyVocabulary | lightstreamer_client/__init__.py:350-377 | `PROBE` and each control prefix followed by anything gets its own class: no earlier test shadows it. |
| Stream.ClassifyDataLine | lightstreamer_client/__init__.py:378-379 | A line starting with a rendered key is always data. |
| Stream.Receive | lightstreamer_client/__init__.py:331-379 | The loop stops on a terminal class, never beyond the last line. It changes neither the session, the counters nor the set of keys. |
| Stream.ReceiveStops | lightstreamer_client/__init__.py:334-379 | No line before the stop is terminal, and the reported ending is the stop line's class. Running out of lines reads as a blank line. |
| Stream.ReceiveForwardsData | lightstreamer_client/__init__.py:378-379 | The loop's effect is exactly forwarding, in order, the data lines before the stop. |
| Stream.Forward | lightstreamer_client/__init__.py:315-329 | Forwarding one line changes only subscriptions, never the set of keys. |
| Stream.SkipsKeepalive | lightstreamer_client/__init__.py:350-352 | A `PROBE` or `Preamble` line is skipped: the loop continues with the next line and dispatches nothing. |
| Stream.StopsOnTerminal | lightstreamer_client/__init__.py:347-374 | A terminal line (blank, `ERROR`, `LOOP`, `SYNC ERROR`, `END`) ends the loop at once, with the client untouched. |
| Stream.EndStream | lightstreamer_client/__init__.py:381-390 | Without LOOP, the stream, the session, the table and the key counter are cleared, and the bind counter and configuration are kept. On LOOP nothing is cleared. The key invariant holds either way. |
| Stream.ParseHeaders | lightstreamer_client/__init__.py:209-215 | The header loop stops on an empty line or at the end of the lines. It raises only on a non-empty line without `:`. Only the session changes, and it only gains keys. The reader starts on a suffix of the lines. |
| Stream.HeaderWithoutColon | lightstreamer_client/__init__.py:211-212 | A non-empty header line without `:` raises at once, because `split(":", 1)` cannot be unpacked into a key and a value. |
| Stream.HeaderLineReads | lightstreamer_client/__init__.py:210-213 | A `key:value` header line, after `rstrip`, splits at its first `:` into key and value. |
| Stream.ParseHeadersRoundTrip | lightstreamer_client/__init__.py:204-215 | Parsing a header block as a server writes it stores every header in order (a later header with the same key wins), and the reader starts right after the blank line. |
| Stream.BlankLineEndsHeaders | lightstreamer_client/__init__.py:211-215 | An empty line ends the header block, and the reader starts right after it. |
| Stream.HeaderStep | lightstreamer_client/__init__.py:211-213 | One header line is stored under its key, and parsing continues with the following lines. |
| Stream.HandleStream | lightstreamer_client/__init__.py:204-233 | The handshake is refused (and raises) exactly when the first line, trimmed, is not `OK`, and then the client is unchanged. Otherwise it either starts a reader or raises on a header line without `:`, and only the session changes, by gaining headers. |
| Stream.Connect | lightstreamer_client/__init__.py:171-185 | A failed request raises with nothing changed. Otherwise the stream connection is held, and only the session can change further. An opened connection is refused exactly when its first line is not `OK`. After `OK` a reader starts, unless a header line without `:` raises. |
| Stream.Bind | lightstreamer_client/__init__.py:187-201 | A missing `SessionId` raises first. The bind counter goes up by one exactly when the bind request is made. An opened connection is refused exactly when its first line is not `OK`. After `OK` a reader starts, unless a header line without `:` raises. The table, key counter and configuration are kept, the session only gains keys, and the key invariant is kept. |
| Stream.StreamTask | lightstreamer_client/__init__.py:220-226 | The bind counter grows by the number of rebinds, each using one connection. Ending without LOOP resets the session, table and key counter. Otherwise the keys and key counter survive. The key invariant is kept. |
| Stream.TaskWithoutLoop | lightstreamer_client/__init__.py:381-387 | A reader that stops without LOOP ends the chain `Closed`: no rebind, its own deliveries, and the client reset by `Stream.EndStream`. |
| Stream.TaskAfterLoop | lightstreamer_client/__init__.py:388-390 | A reader stopped by LOOP at any line and after any data, followed by a successful bind, hands over to the next reader. Its deliveries come first, and one rebind is counted. |
| Stream.TaskBindFails | lightstreamer_client/__init__.py:388-390 | After LOOP, a bind that does not start a reader ends the chain with that handshake. Nothing is reset, and a rebind is counted only if the bind counter went up. |
| Scenarios.ThreeSubscriptions | lightstreamer_client/__init__.py:256-278 | On a fresh table with a session, three subscriptions get the keys 1, 2 and 3 and the table holds exactly those. |
| Scenarios.SubscribeWithoutSession | lightstreamer_client/__init__.py:259-265 | Without a session, `subscribe` raises, but the subscription stays registered under key 1. |
| Scenarios.RenderedLines | lightstreamer_client/__init__.py:78 | The concrete update lines used in the scenarios, rendered from their tokens, are the literal texts the server sends (position, then bar-separated tokens). |
| Scenarios.TwoFieldEntry | lightstreamer_client/__init__.py:89-101 | With two distinct fields, the merged entry is exactly the two decoded tokens. |
| Scenarios.NewQuoteSubscription | lightstreamer_client/__init__.py:46-54 | A subscription created with one item and fields `bid` and `ask` has no listener and nothing cached. Its first update of item 1 stores and reports the two decoded tokens. |
| Scenarios.QuoteUpdate | lightstreamer_client/__init__.py:74-101 | One default-mode update of a two-field, one-item subscription replaces item 1's entry by the two decoded tokens. |
| Scenarios.MergeTwoUpdates | lightstreamer_client/__init__.py:89-101 | Item 1 updated with tokens `x`, empty, then with tokens empty, `y`: the first leaves `ask` null, the second's empty token keeps `bid`, and the cache ends holding both values. |
| Scenarios.FirstNewValue | lightstreamer_client/__init__.py:84 | In new-values mode an empty token is left out of the event. |
| Scenarios.RawModeUpdate | lightstreamer_client/__init__.py:82-85 | In new-values mode, item 1 updated with tokens `$x`, empty reports `$x` with the marker kept, and the subscription is unchanged. |
| Scenarios.ZeroPositionReadsLastItem | lightstreamer_client/__init__.py:80 | Position 0 is accepted and names the last item, through Python's index -1. |
| Scenarios.PastTheEndIsMissing | lightstreamer_client/__init__.py:80 | A position one past the last item raises `IndexError`. |
| Scenarios.NonNumericPosition | lightstreamer_client/__init__.py:79 | A non-integer position raises before any item is looked up. |
| Scenarios.ReadsWord | lightstreamer_client/__init__.py:165-169 | A word followed by any whitespace terminator reads back as the word. |
| Scenarios.ControlWord | lightstreamer_client/__init__.py:350-374 | `LOOP`, `END`, `PROBE` and `OK`, with any terminator, read back as themselves. `LOOP`, `END` and `PROBE` get their own classes, and `OK` is an ordinary data line to the reader. |
| Scenarios.ProbeContinues | lightstreamer_client/__init__.py:350-352 | `PROBE` is skipped and the reader goes on with the next line. |
| Scenarios.EndResets | lightstreamer_client/__init__.py:369-387 | `END` stops the reader and resets the session, the table and the key counter, with no rebind. |
| Scenarios.LoopRebinds | lightstreamer_client/__init__.py:357-362 | `LOOP` stops the reader and rebinds. After `OK` and an empty header block the bind counter is one up and a new reader goes on with the table as it was. |
| Scenarios.RebindOnOk | lightstreamer_client/__init__.py:187-215 | A rebind answered with `OK` and an empty header block starts a reader on the following lines, with the bind counter one up. |
| Text.RStripBlank | lightstreamer_client/__init__.py:340-341 | After `rstrip`, a line is blank exactly when it is empty, which happens exactly when the raw line was all whitespace. |
| Text.Split | lightstreamer_client/__init__.py:78 | `split(sep)` gives at least one part, no part contains the separator, and joining the parts with it gives the text back. |
| Text.SplitOnce | lightstreamer_client/__init__.py:322 | `split(sep, 1)` finds no separator exactly when there is none. Otherwise the part before has no separator, and the two parts around it make up the text. |
| Text.SplitJoin | lightstreamer_client/__init__.py:78 | Splitting a join of separator-free parts gives the parts back. |
| Text.SplitOnceJoin | lightstreamer_client/__init__.py:322 | `split(sep, 1)` on `a + sep + b`, with no separator in `a`, gives `a` and `b`. |
| Text.ParseInt | lightstreamer_client/__init__.py:79 | `int()` raises on text that is all whitespace. Text it accepts contains a decimal digit, and a negative result needs a minus sign in the text. `Text.ParseIntRoundTrip` is the converse for rendered integers. |
| Text.ParseIntRoundTrip | lightstreamer_client/__init__.py:323 | `int(str(n)) == n` for every integer. |

## Left out

- HTTP: URL joining (`urljoin`, `_set_control_link_url`, the `ControlAddress` header), `urlencode`'s percent-encoding and the UTF-8 byte decoding. Requests are reduced to their parameter lists, and answers to their lines.
- The control address is not part of the client state. The source sets it only after the whole header block is read (`lightstreamer_client/__init__.py:146-154`, called at line 218). This has two consequences the model shows only through the `Reply` it is given:
  - A `connect` whose headers store a `SessionId` and then hit a line without `:` leaves the session set but no control address. Every later control request, and `bind`, then raises whatever the server would answer. Callers of `Control.SendControl`, `Clients.Subscribe`, `Clients.SendDelete` and `Clients.Unsubscribe` must pass `Broken` for that state.
  - A `ControlAddress` header that URL parsing rejects makes the handshake raise after the headers. The model reports `Started` instead.
- Stream.Connect, Stream.Bind: the request body is not part of the result. The connection is given as a parameter, and `Control.ConnectBody` and `Control.BindBody` state separately what each request sends.
- Threads: a reader is a function of the lines it will read. `_join`, the daemon flag and thread names are not modelled, and neither is any interleaving of a reader with `subscribe` or `unsubscribe` on the main thread.
- Logging, `print(traceback...)` and the text of error messages.
- Exceptions raised by listener callbacks. A listener is an identity, and calling it is a `Delivery` value.
- `int()` accepting underscores and non-ASCII digits. `ParseInt` takes an optional sign and ASCII digits, after stripping whitespace.
- A read error in the middle of a stream. It is caught and treated as a blank line; in the model it is the lines running out.
- Aliasing of a registered subscription: `subscribe` stores the caller's object by reference, so a listener the caller adds later through its own reference is called on the next update, and the caller sees the cache change. The same holds for one object registered under two keys. The model stores a value: `Clients.Subscribe` copies the subscription, and there is no operation that adds a listener to a registered key.
- Clients.Disconnect: the blocking `_join` after DESTROY is not modelled. The call's effect on the client is stated as none, and the later reset is `Stream.EndStream`'s.
- Stream.StreamTask: the chain of readers is bounded by the list of connections given. When that list runs out after a LOOP, the result is `Rebinding` rather than an unbounded wait.
- Text.ParseInt: the contract states what any accepted text must contain, not the full set of accepted texts. `Text.ParseIntRoundTrip`, `Text.ParseIntOfDigits` and `Text.ParseIntOfNegative` state acceptance for digit runs and rendered integers.

=== FILE: client.dfy ===
/**
 The client's state and its subscription table: keys handed out by a
 counter, registration before confirmation, removal only on an `OK`
 answer, and routing of data lines to the subscription they name.
 */
module Clients {
  import opened Results
  import opened Text
  import opened Control
  import opened Subscriptions

  /** The credentials and adapter set given to the constructor. */
  datatype Config = Config(user: string, password: string, adapterSet: string)

  /**
   The client: the session's header values (`SessionId`, `ControlAddress`,
   ...), the table of subscriptions by key, the last key handed out, whether
   a stream connection is held, and the number of rebinds so far.
   */
  datatype Client = Client(
    config: Config,
    session: map<string, string>,
    subscriptions: map<int, Subscription>,
    lastKey: nat,
    streamOpen: bool,
    bindCount: nat)

  /** A client as constructed: no session, no subscriptions, both counters at zero. */
  function NewClient(config: Config): (r: Client) {
    Client(config, map[], map[], 0, false, 0)
  }

  /** Every registered key was handed out by the counter: it lies in `[1, lastKey]`. */
  predicate Valid(c: Client) {
    forall k :: k in c.subscriptions ==> 1 <= k <= c.lastKey
  }

  lemma NewClientValid(config: Config)
    ensures Valid(NewClient(config)) && NewClient(config).subscriptions == map[]
  {
  }

  predicate HasSession(c: Client) {
    "SessionId" in c.session
  }

  /** The ADD request `subscribe` sends for `s` under `key`. */
  function AddRequest(key: int, s: Subscription): (r: Request) {
    Add(key, s.snapshot, s.adapter, s.mode, s.fields, s.items)
  }

  /** What `subscribe` leaves behind: the client, and the key it returned or the error it raised. */
  datatype Subscribed = Subscribed(client: Client, key: Result<int, ControlError>)

  /**
   `subscribe`: the next key is taken and `s` is registered under it before
   the ADD request goes out. The registration stays whatever the server
   answers, and also when the request raises; the key is returned unless it
   raised.
   */
  function Subscribe(c: Client, s: Subscription, reply: Reply): (r: Subscribed)
    ensures r.client.lastKey == c.lastKey + 1
    ensures r.client.subscriptions == c.subscriptions[c.lastKey + 1 := s]
    ensures r.client.(lastKey := c.lastKey, subscriptions := c.subscriptions) == c
    ensures r.key.Success? ==> r.key.value == c.lastKey + 1
    ensures r.key.Failure? <==> !HasSession(c) || reply.Broken?
    ensures Valid(c) ==> Valid(r.client) && c.lastKey + 1 !in c.subscriptions
  {
    var key := c.lastKey + 1;
    var c' := c.(lastKey := key, subscriptions := c.subscriptions[key := s]);
    match SendControl(c'.session, AddRequest(key, s), reply)
    case Failure(e) => Subscribed(c', Failure(e))
    case Success(_) => Subscribed(c', Success(key))
  }

  /** The answer to an ADD never changes what `subscribe` leaves in the table. */
  lemma SubscribeIgnoresReply(c: Client, s: Subscription, a: Reply, b: Reply)
    ensures Subscribe(c, s, a).client == Subscribe(c, s, b).client
  {
  }

  /** On a valid client, a new key is larger than every key already in the table, so keys are never reused. */
  lemma SubscribeKeyIsFresh(c: Client, s: Subscription, reply: Reply)
    requires Valid(c)
    ensures forall k :: k in c.subscriptions ==> k < Subscribe(c, s, reply).client.lastKey
  {
  }

  /**
   A DELETE for `key` through `_control`: whether the server confirmed it,
   or why the request raised.
   */
  function SendDelete(session: map<string, string>, key: int, reply: Reply): (r: Result<bool, ControlError>)
    ensures r.Failure? <==> "SessionId" !in session || reply.Broken?
    ensures r.Failure? ==> r.error == (if "SessionId" !in session then NoSession else TransportError)
    ensures r.Success? ==> (r.value <==> Confirms(reply))
  {
    match SendControl(session, Delete(key), reply)
    case Failure(e) => Failure(e)
    case Success(sent) => Success(sent.response == "OK")
  }

  /** What `unsubscribe` leaves behind: the client, whether a DELETE was attempted, and the error if it raised. */
  datatype Unsubscribed = Unsubscribed(client: Client, contacted: bool, raised: Option<ControlError>)

  /**
   `unsubscribe(key)`: a key not in the table only gets a warning, with no
   request. For a registered key a DELETE is sent, and the entry is removed
   exactly when the answer is `OK`.
   */
  function Unsubscribe(c: Client, key: int, reply: Reply): (r: Unsubscribed)
    ensures r.contacted <==> key in c.subscriptions
    ensures key !in c.subscriptions ==> r.client == c && r.raised.None?
    ensures r.client.subscriptions ==
      if key in c.subscriptions && HasSession(c) && Confirms(reply) then c.subscriptions - {key} else c.subscriptions
    ensures r.client.(subscriptions := c.subscriptions) == c
    ensures r.raised.Some? <==> key in c.subscriptions && (!HasSession(c) || reply.Broken?)
    ensures Valid(c) ==> Valid(r.client)
  {
    if key !in c.subscriptions then Unsubscribed(c, false, None)
    else
      match SendDelete(c.session, key, reply)
      case Failure(e) => Unsubscribed(c, true, Some(e))
      case Success(confirmed) =>
        if confirmed then Unsubscribed(c.(subscriptions := c.subscriptions - {key}), true, None)
        else Unsubscribed(c, true, None)
  }

  /** An unconfirmed DELETE leaves the table as it was. */
  lemma UnsubscribeNeedsConfirmation(c: Client, key: int, reply: Reply)
    requires !Confirms(reply)
    ensures Unsubscribe(c, key, reply).client == c
  {
  }

  predicate StrictlyAscending(xs: seq<int>) {
    forall i, j :: 0 <= i < j < |xs| ==> xs[i] < xs[j]
  }

  lemma NonEmptyHasElement(s: set<int>)
    requires s != {}
    ensures exists y :: y in s
  {
    if forall y :: y !in s {
      assert false;
    }
  }

  predicate IsMinimum(m: int, s: set<int>) {
    m in s && forall x :: x in s ==> m <= x
  }

  lemma {:induction false} MinimumExists(s: set<int>)
    requires s != {}
    ensures exists m :: IsMinimum(m, s)
    decreases |s|
  {
    NonEmptyHasElement(s);
    var y :| y in s;
    var rest := s - {y};
    assert forall x :: x in s ==> x == y || x in rest;
    if rest == {} {
      assert IsMinimum(y, s);
    } else {
      MinimumExists(rest);
      var m :| IsMinimum(m, rest);
      if y < m {
        assert IsMinimum(y, s);
      } else {
        assert IsMinimum(m, s);
      }
    }
  }

  /**
   The keys of the table in ascending order. Python walks a dictionary in
   insertion order, and keys are inserted by an increasing counter that only
   restarts when the table is emptied, so this is the order in which
   `unsubscribe_all` visits them.
   */
  method AscendingKeys(keys: set<int>) returns (order: seq<int>)
    ensures StrictlyAscending(order)
    ensures forall k :: k in order <==> k in keys
    ensures |order| == |keys|
  {
    order := [];
    var rest := keys;
    while rest != {}
      invariant StrictlyAscending(order)
      invariant forall k :: k in keys <==> k in order || k in rest
      invariant forall i, k :: 0 <= i < |order| && k in rest ==> order[i] < k
      invariant |order| + |rest| == |keys|
      invariant rest <= keys
      decreases |rest|
    {
      MinimumExists(rest);
      var m :| IsMinimum(m, rest);
      order := order + [m];
      rest := rest - {m};
    }
  }

  /** The keys, among the first `done` visited, whose DELETE was confirmed. */
  function Confirmed(order: seq<int>, replies: seq<Reply>, done: nat): (r: set<int>)
    requires done <= |order| && done <= |replies|
  {
    set i | 0 <= i < done && Confirms(replies[i]) :: order[i]
  }

  /** The client `unsubscribe_all` has produced after the first `done` DELETEs. */
  function Walked(c: Client, order: seq<int>, replies: seq<Reply>, done: nat): (r: Client)
    requires done <= |order| && done <= |replies|
  {
    c.(subscriptions := c.subscriptions - Confirmed(order, replies, done))
  }

  /** Whether the first `done` DELETEs all got an answer line. */
  predicate Answered(replies: seq<Reply>, done: nat)
    requires done <= |replies|
  {
    forall i :: 0 <= i < done ==> replies[i].Line?
  }

  /** The keys confirmed so far grow by the next key exactly when its DELETE is confirmed. */
  lemma ConfirmedStep(order: seq<int>, replies: seq<Reply>, done: nat)
    requires done < |order| && done < |replies|
    ensures Confirmed(order, replies, done + 1) ==
      Confirmed(order, replies, done) + (if Confirms(replies[done]) then {order[done]} else {})
  {
  }

  /** One more DELETE that got an answer: a confirmed one removes its key, an unconfirmed one removes nothing. */
  lemma DeleteStep(c: Client, order: seq<int>, replies: seq<Reply>, done: nat)
    requires done < |order| && done < |replies|
    ensures var r := Walked(c, order, replies, done);
      (if Confirms(replies[done]) then r.(subscriptions := r.subscriptions - {order[done]}) else r) == Walked(c, order, replies, done + 1)
  {
    var before := Confirmed(order, replies, done);
    ConfirmedStep(order, replies, done);
    if Confirms(replies[done]) {
      assert c.subscriptions - (before + {order[done]}) == (c.subscriptions - before) - {order[done]};
    }
  }

  /**
   The DELETE walk of `unsubscribe_all` over keys in the given order, the
   i-th answered by `replies[i]`: each confirmed key is removed, and a request
   that raises stops the walk, keeping the removals made so far.
   */
  method DeleteInOrder(c: Client, order: seq<int>, replies: seq<Reply>) returns (r: Client, done: nat, raised: Option<ControlError>)
    requires |order| == |replies|
    ensures done <= |order|
    ensures raised.None? ==> done == |order|
    ensures raised.Some? ==> done < |order| && (!HasSession(c) || replies[done].Broken?)
    ensures HasSession(c) ==> Answered(replies, done)
    ensures !HasSession(c) && |order| > 0 ==> done == 0 && raised == Some(NoSession)
    ensures HasSession(c) && raised.Some? ==> raised == Some(TransportError)
    ensures r == Walked(c, order, replies, done)
  {
    done := 0;
    r := c;
    assert Confirmed(order, replies, 0) == {};
    raised := None;
    while done < |order| && raised.None?
      invariant done <= |order|
      invariant r == Walked(c, order, replies, done)
      invariant raised.Some? ==> done < |order| && SendDelete(c.session, order[done], replies[done]) == Failure(raised.value)
      invariant done > 0 ==> HasSession(c)
      invariant HasSession(c) ==> Answered(replies, done)
      decreases |order| - done, if raised.None? then 1 else 0
    {
      r, done, raised := DeleteNext(c, order, replies, r, done);
    }
  }

  /**
   One DELETE of the walk: a request that raises leaves everything as it
   was; otherwise the key is removed when confirmed and the walk moves on.
   */
  method DeleteNext(c: Client, order: seq<int>, replies: seq<Reply>, r: Client, done: nat) returns (r': Client, done': nat, raised: Option<ControlError>)
    requires done < |order| == |replies|
    requires r == Walked(c, order, replies, done)
    ensures raised.Some? ==> r' == r && done' == done && SendDelete(c.session, order[done], replies[done]) == Failure(raised.value)
    ensures raised.None? ==> done' == done + 1 && r' == Walked(c, order, replies, done') && HasSession(c) && replies[done].Line?
  {
    match SendDelete(r.session, order[done], replies[done])
    case Failure(e) =>
      r', done', raised := r, done, Some(e);
    case Success(confirmed) =>
      DeleteStep(c, order, replies, done);
      r' := if confirmed then r.(subscriptions := r.subscriptions - {order[done]}) else r;
      done', raised := done + 1, None;
  }

  /**
   `unsubscribe_all`: a DELETE for every key registered at the start, in key
   order, the i-th answered by `replies[i]`. Exactly the confirmed keys are
   removed; a request that raises stops the walk, keeping the removals made
   so far.
   */
  method UnsubscribeAll(c: Client, replies: seq<Reply>) returns (r: Client, order: seq<int>, done: nat, raised: Option<ControlError>)
    requires |replies| == |c.subscriptions|
    ensures StrictlyAscending(order) && forall k :: k in order <==> k in c.subscriptions
    ensures |order| == |replies| && done <= |order|
    ensures raised.None? ==> done == |order|
    ensures raised.Some? ==> done < |order| && (!HasSession(c) || replies[done].Broken?)
    ensures HasSession(c) ==> forall i :: 0 <= i < done ==> replies[i].Line?
    ensures !HasSession(c) && c.subscriptions != map[] ==> done == 0 && raised == Some(NoSession) && r == c
    ensures HasSession(c) && raised.Some? ==> raised == Some(TransportError)
    ensures r.subscriptions == c.subscriptions - Confirmed(order, replies, done)
    ensures r.(subscriptions := c.subscriptions) == c
    ensures Valid(c) ==> Valid(r)
  {
    order := AscendingKeys(c.subscriptions.Keys);
    assert |c.subscriptions.Keys| == |c.subscriptions|;
    r, done, raised := DeleteInOrder(c, order, replies);
    if !HasSession(c) && c.subscriptions != map[] {
      assert Confirmed(order, replies, 0) == {};
    }
  }

  /** How `_forward_update_message` disposed of a data line. */
  datatype Routing =
    | Routed(key: int, event: ItemEvent)   // delivered to the subscription under `key`
    | NoSubscription(key: int)             // a well-formed line for a key not in the table
    | Discarded                            // an exception was raised and swallowed

  datatype Forwarded = Forwarded(client: Client, routing: Routing, deliveries: seq<Delivery>)

  /**
   `_forward_update_message`: `<key>,<item line>` is split at its first
   comma; the item line goes to `notify_update` of the subscription under
   `key` if there is one. Nothing raised here leaves the function: a
   malformed line or a failing update is dropped and changes nothing.
   */
  function ForwardUpdate(c: Client, message: string): (r: Forwarded)
    ensures r.client.(subscriptions := c.subscriptions) == c
    ensures r.client.subscriptions.Keys == c.subscriptions.Keys
    ensures !r.routing.Routed? ==> r.client == c && r.deliveries == []
    ensures r.routing.Routed? ==>
      && r.routing.key in c.subscriptions
      && SplitOnce(message, ',').Some?
      && ParseInt(SplitOnce(message, ',').value.0) == Some(r.routing.key)
      && var u := NotifyUpdate(c.subscriptions[r.routing.key], SplitOnce(message, ',').value.1);
      && u.Success?
      && r.client.subscriptions == c.subscriptions[r.routing.key := u.value.sub]
      && r.routing.event == u.value.event
      && r.deliveries == Notify(c.subscriptions[r.routing.key].listeners, u.value.event)
    ensures r.routing.NoSubscription? ==>
      && r.routing.key !in c.subscriptions
      && SplitOnce(message, ',').Some?
      && ParseInt(SplitOnce(message, ',').value.0) == Some(r.routing.key)
    ensures r.routing == Discarded <==>
      var split := SplitOnce(message, ',');
      || split.None?
      || ParseInt(split.value.0).None?
      || (ParseInt(split.value.0).value in c.subscriptions
          && NotifyUpdate(c.subscriptions[ParseInt(split.value.0).value], split.value.1).Failure?)
    ensures r.routing.NoSubscription? <==>
      var split := SplitOnce(message, ',');
      split.Some? && ParseInt(split.value.0).Some? && ParseInt(split.value.0).value !in c.subscriptions
    ensures Valid(c) ==> Valid(r.client)
  {
    match SplitOnce(message, ',')
    case None => Forwarded(c, Discarded, [])
    case Some((head, item)) =>
      match ParseInt(head)
      case None => Forwarded(c, Discarded, [])
      case Some(key) =>
        if key !in c.subscriptions then Forwarded(c, NoSubscription(key), [])
        else Deliver(c, key, item)
  }

  /** The item line reaches the subscription under `key`: a failing update is dropped, a successful one replaces the subscription and calls its listeners. */
  function Deliver(c: Client, key: int, item: string): (r: Forwarded)
    requires key in c.subscriptions
    ensures r.client.(subscriptions := c.subscriptions) == c
    ensures r.client.subscriptions.Keys == c.subscriptions.Keys
    ensures r.routing.Routed? || r.routing == Discarded
    ensures r.routing == Discarded <==> NotifyUpdate(c.subscriptions[key], item).Failure?
    ensures r.routing == Discarded ==> r.client == c && r.deliveries == []
    ensures r.routing.Routed? ==>
      && r.routing.key == key
      && var u := NotifyUpdate(c.subscriptions[key], item);
      && u.Success?
      && r.client.subscriptions == c.subscriptions[key := u.value.sub]
      && r.routing.event == u.value.event
      && r.deliveries == Notify(c.subscriptions[key].listeners, u.value.event)
    ensures Valid(c) ==> Valid(r.client)
  {
    var s := c.subscriptions[key];
    match NotifyUpdate(s, item)
    case Failure(_) => Forwarded(c, Discarded, [])
    case Success(u) =>
      Forwarded(c.(subscriptions := c.subscriptions[key := u.sub]), Routed(key, u.event), Notify(s.listeners, u.event))
  }

  /**
   A data line whose head is any text `int()` reads as `key` (`"3"`, `"03"`,
   `" 3"`) reaches the subscription under `key` when there is one, and is
   dropped otherwise.
   */
  lemma RoutesByHead(c: Client, head: string, key: int, item: string)
    requires ',' !in head && ParseInt(head) == Some(key)
    ensures var r := ForwardUpdate(c, head + "," + item);
      && (key !in c.subscriptions ==> r.routing == NoSubscription(key) && r.client == c)
      && (key in c.subscriptions && NotifyUpdate(c.subscriptions[key], item).Success? ==> r.routing.Routed? && r.routing.key == key)
      && (key in c.subscriptions && NotifyUpdate(c.subscriptions[key], item).Failure? ==> r.routing == Discarded && r.client == c)
  {
    SplitOnceJoin(head, ',', item);
    assert head + "," + item == head + [','] + item;
  }

  /** In particular, a line headed by the key as the server writes it. */
  lemma RoutesByKey(c: Client, key: int, item: string)
    ensures var r := ForwardUpdate(c, IntToString(key) + "," + item);
      && (key !in c.subscriptions ==> r.routing == NoSubscription(key) && r.client == c)
      && (key in c.subscriptions && NotifyUpdate(c.subscriptions[key], item).Success? ==> r.routing.Routed? && r.routing.key == key)
      && (key in c.subscriptions && NotifyUpdate(c.subscriptions[key], item).Failure? ==> r.routing == Discarded && r.client == c)
  {
    IntToStringChars(key);
    ParseIntRoundTrip(key);
    RoutesByHead(c, IntToString(key), key, item);
  }

  /** What `disconnect` did: whether a DESTROY was attempted, and the error if it raised. */
  datatype Disconnected = Disconnected(client: Client, contacted: bool, raised: Option<ControlError>)

  /**
   `disconnect`: without a stream connection only a warning is logged. With
   one, a DESTROY is sent and its answer ignored. The call itself clears
   nothing: the session and table are cleared by the stream reader when the
   server then closes the stream.
   */
  function Disconnect(c: Client, reply: Reply): (r: Disconnected)
    ensures r.client == c
    ensures r.contacted <==> c.streamOpen
    ensures r.raised.Some? <==> c.streamOpen && (!HasSession(c) || reply.Broken?)
  {
    if !c.streamOpen then Disconnected(c, false, None)
    else
      match SendControl(c.session, Destroy, reply)
      case Failure(e) => Disconnected(c, true, Some(e))
      case Success(_) => Disconnected(c, true, None)
  }
}

=== FILE: control.dfy ===
/**
 Request bodies and the control connection. A request is a list of named
 parameters; only those with a truthy value are sent. The HTTP exchange
 itself is an input: the first line the server answered, or a transport
 failure.
 */
module Control {
  import opened Results
  import opened Text

  /** A request parameter value: the Python text, int and bool values the client puts in its dictionaries. */
  datatype Value = Text(s: string) | Number(n: int) | Flag(b: bool)

  type Params = seq<(string, Value)>

  /** Python truthiness: empty text, zero and `False` are left out of a request. */
  predicate Truthy(v: Value) {
    match v
    case Text(s) => s != ""
    case Number(n) => n != 0
    case Flag(b) => b
  }

  /** The parameter filter of `_encode_params`: the truthy entries, in their original order. */
  function EncodeParams(ps: Params): (r: Params)
    ensures |r| <= |ps|
    ensures forall p :: p in r <==> p in ps && Truthy(p.1)
  {
    if |ps| == 0 then []
    else
      var rest := EncodeParams(ps[1..]);
      assert forall p :: p in ps <==> p == ps[0] || p in ps[1..];
      if Truthy(ps[0].1) then [ps[0]] + rest else rest
  }

  /** Filtering a filtered list changes nothing more. */
  lemma {:induction false} EncodeParamsIdempotent(ps: Params)
    ensures EncodeParams(EncodeParams(ps)) == EncodeParams(ps)
  {
    if |ps| > 0 {
      EncodeParamsIdempotent(ps[1..]);
      var rest := EncodeParams(ps[1..]);
      if Truthy(ps[0].1) {
        assert ([ps[0]] + rest)[1..] == rest;
      }
    }
  }

  /** Order is kept: filtering a concatenation is concatenating the filtered halves. */
  lemma {:induction false} EncodeParamsAppend(a: Params, b: Params)
    ensures EncodeParams(a + b) == EncodeParams(a) + EncodeParams(b)
    decreases |a|
  {
    if |a| > 0 {
      assert (a + b)[0] == a[0];
      assert (a + b)[1..] == a[1..] + b;
      EncodeParamsAppend(a[1..], b);
    } else {
      assert a + b == b;
    }
  }

  /** The control operations the client issues. */
  datatype Request =
    | Add(table: int, snapshot: bool, adapter: string, mode: string, fields: seq<string>, items: seq<string>)
    | Delete(table: int)
    | Destroy

  /** The parameter dictionary each operation builds, in the order the client writes it. */
  function RequestParams(req: Request): (r: Params)
  {
    match req
    case Add(table, snapshot, adapter, mode, fields, items) =>
      [("LS_Table", Number(table)), ("LS_op", Text("add")), ("LS_snapshot", Flag(snapshot)),
       ("LS_data_adapter", Text(adapter)), ("LS_mode", Text(mode)),
       ("LS_schema", Text(Join(fields, ' '))), ("LS_id", Text(Join(items, ' ')))]
    case Delete(table) => [("LS_Table", Number(table)), ("LS_op", Text("delete"))]
    case Destroy => [("LS_op", Text("destroy"))]
  }

  /**
   Each request is a dictionary, so no key occurs twice, and none carries
   `LS_session`, which `_control` adds itself. ADD carries its seven entries,
   DELETE the table key and `delete`, DESTROY only `destroy`.
   */
  lemma RequestParamsShape(req: Request)
    ensures var r := RequestParams(req);
      && (forall i, j :: 0 <= i < j < |r| ==> r[i].0 != r[j].0)
      && (forall i :: 0 <= i < |r| ==> r[i].0 != "LS_session")
      && (!req.Destroy? ==> ("LS_Table", Number(req.table)) in r)
      && (req.Add? ==>
        && |r| == 7
        && ("LS_op", Text("add")) in r && ("LS_snapshot", Flag(req.snapshot)) in r
        && ("LS_data_adapter", Text(req.adapter)) in r && ("LS_mode", Text(req.mode)) in r
        && ("LS_schema", Text(Join(req.fields, ' '))) in r && ("LS_id", Text(Join(req.items, ' '))) in r)
      && (req.Delete? ==> |r| == 2 && ("LS_op", Text("delete")) in r)
      && (req.Destroy? ==> |r| == 1 && ("LS_op", Text("destroy")) in r)
  {
    var r := RequestParams(req);
    if req.Add? {
      assert r[0] == ("LS_Table", Number(req.table)) && r[1] == ("LS_op", Text("add"));
      assert r[2] == ("LS_snapshot", Flag(req.snapshot)) && r[3] == ("LS_data_adapter", Text(req.adapter));
      assert r[4] == ("LS_mode", Text(req.mode)) && r[5] == ("LS_schema", Text(Join(req.fields, ' ')));
      assert r[6] == ("LS_id", Text(Join(req.items, ' ')));
    } else if req.Delete? {
      assert r[0] == ("LS_Table", Number(req.table)) && r[1] == ("LS_op", Text("delete"));
    } else {
      assert r[0] == ("LS_op", Text("destroy"));
    }
  }

  /** What the server did with one control request: the first line it answered, or a transport failure. */
  datatype Reply = Line(text: string) | Broken

  /** Why `_control` raised instead of returning a line. */
  datatype ControlError = NoSession | TransportError

  /** A request that went out, and the first answer line with its trailing whitespace removed. */
  datatype Sent = Sent(body: Params, response: string)

  /** A reply confirms an operation when its first line, trimmed, is exactly `OK`. */
  predicate Confirms(reply: Reply) {
    reply.Line? && RStrip(reply.text) == "OK"
  }

  /**
   `_control`: the session id is added as the last parameter (a session with
   no `SessionId` raises before anything is sent), the truthy parameters are
   posted, and the trimmed first answer line is returned.
   */
  function SendControl(session: map<string, string>, req: Request, reply: Reply): (r: Result<Sent, ControlError>)
    ensures r.Failure? <==> "SessionId" !in session || reply.Broken?
    ensures "SessionId" !in session ==> r == Failure(NoSession)
    ensures "SessionId" in session && reply.Broken? ==> r == Failure(TransportError)
    ensures r.Success? ==> r.value.body == EncodeParams(RequestParams(req)) + EncodeParams([("LS_session", Text(session["SessionId"]))])
    ensures r.Success? ==> (r.value.response == "OK" <==> Confirms(reply))
  {
    if "SessionId" !in session then Failure(NoSession)
    else
      match reply
      case Broken => Failure(TransportError)
      case Line(text) =>
        var ps := RequestParams(req) + [("LS_session", Text(session["SessionId"]))];
        EncodeParamsAppend(RequestParams(req), [("LS_session", Text(session["SessionId"]))]);
        Success(Sent(EncodeParams(ps), RStrip(text)))
  }

  /** The parameters of a create-session request (`connect`). */
  function ConnectParams(adapterSet: string, user: string, password: string): (r: Params) {
    [("LS_adapter_set", Text(adapterSet)), ("LS_user", Text(user)), ("LS_password", Text(password))]
  }

  /** The parameters of a bind-session request (`bind`). */
  function BindParams(sessionId: string): (r: Params) {
    [("LS_session", Text(sessionId))]
  }

  /**
   A create-session body carries exactly the non-empty credentials, in the
   order adapter set, user, password: an anonymous connection sends no user
   and no password at all.
   */
  lemma ConnectBody(adapterSet: string, user: string, password: string)
    ensures var body := EncodeParams(ConnectParams(adapterSet, user, password));
      && |body| == (if adapterSet != "" then 1 else 0) + (if user != "" then 1 else 0) + (if password != "" then 1 else 0)
      && (("LS_adapter_set", Text(adapterSet)) in body <==> adapterSet != "")
      && (("LS_user", Text(user)) in body <==> user != "")
      && (("LS_password", Text(password)) in body <==> password != "")
  {
    var ps := ConnectParams(adapterSet, user, password);
    assert ps == [ps[0]] + [ps[1]] + [ps[2]];
    EncodeParamsAppend([ps[0]] + [ps[1]], [ps[2]]);
    EncodeParamsAppend([ps[0]], [ps[1]]);
  }

  /** A bind-session body is the session id, or nothing when the id is empty. */
  lemma BindBody(sessionId: string)
    ensures EncodeParams(BindParams(sessionId)) == if sessionId == "" then [] else BindParams(sessionId)
  {
  }

  /** An ADD without snapshot and without data adapter sends neither parameter; the table key, operation and mode always go. */
  lemma AddBodyOmitsFalsyValues(table: int, mode: string, fields: seq<string>, items: seq<string>)
    requires table != 0 && mode != ""
    ensures var body := EncodeParams(RequestParams(Add(table, false, "", mode, fields, items)));
      && ("LS_snapshot", Flag(false)) !in body
      && ("LS_data_adapter", Text("")) !in body
      && ("LS_Table", Number(table)) in body
      && ("LS_op", Text("add")) in body
      && ("LS_mode", Text(mode)) in body
  {
    var ps := RequestParams(Add(table, false, "", mode, fields, items));
    assert ps[0] == ("LS_Table", Number(table)) && ps[1] == ("LS_op", Text("add")) && ps[4] == ("LS_mode", Text(mode));
    assert !Truthy(Flag(false)) && !Truthy(Text(""));
  }
}

=== FILE: field_codec.dfy ===
/**
 The field-value rule of the Lightstreamer text protocol: one token of an
 update line, read against the field's previously decoded value. A decoded
 value is `Some(text)` or `None`, the protocol's null.
 */
module FieldCodec {
  import opened Results

  /** The two characters that mark a token as needing its first character removed. */
  predicate IsMarker(c: char) {
    c == '#' || c == '$'
  }

  /**
   Decodes `token` given `last`, the field's previous value: `"$"` is the
   empty text, `"#"` is null, an empty token means "unchanged", a token
   starting with a marker loses exactly that one character, and any other
   token is taken as it is.
   */
  function Decode(token: string, last: Option<string>): (r: Option<string>)
    ensures token == "" ==> r == last
    ensures token != "" ==> (r.None? <==> token == "#")
    ensures token != "" && r.Some? ==> |token| - 1 <= |r.value| <= |token| && r.value == token[|token| - |r.value|..]
  {
    if token == "$" then Some("")
    else if token == "#" then None
    else if token == "" then last
    else if IsMarker(token[0]) then Some(token[1..])
    else Some(token)
  }

  /** The decoding table, row by row, including that only one marker is ever stripped (`"$$"` decodes to `"$"`). */
  lemma DecodeTable(last: Option<string>, x: string)
    ensures Decode("$", last) == Some("")
    ensures Decode("#", last) == None
    ensures Decode("", last) == last
    ensures x != "" ==> Decode("#" + x, last) == Some(x) && Decode("$" + x, last) == Some(x)
    ensures x != "" && !IsMarker(x[0]) ==> Decode(x, last) == Some(x)
    ensures Decode("$$", last) == Some("$") && Decode("##", last) == Some("#")
  {
    assert ("#" + x)[1..] == x;
    assert ("$" + x)[1..] == x;
    assert "$$"[1..] == "$";
    assert "##"[1..] == "#";
  }

  /** Only an empty token looks at the previous value. */
  lemma DecodeIgnoresLast(token: string, a: Option<string>, b: Option<string>)
    requires token != ""
    ensures Decode(token, a) == Decode(token, b)
  {
  }

  /**
   The sending side of the same rule, which the client never runs: the token
   a server sends so that `value` is decoded from a field whose previous value
   is `last`. It is the reference the decoder is checked against.
   */
  function Encode(value: Option<string>, last: Option<string>): (token: string)
    ensures token == "" <==> value == last
  {
    if value == last then ""
    else
      match value
      case None => "#"
      case Some(s) =>
        if s == "" then "$"
        else if IsMarker(s[0]) then "$" + s
        else s
  }

  /** Decoding what the encoder sends gives back the value, whatever the previous value was. */
  lemma DecodeEncode(value: Option<string>, last: Option<string>)
    ensures Decode(Encode(value, last), last) == value
  {
    if value != last && value.Some? && value.value != "" && IsMarker(value.value[0]) {
      assert ("$" + value.value)[1..] == value.value;
    }
  }
}

=== FILE: results.dfy ===
/**
 Option and Result values used across the model: `None` stands for Python's
 `None`, and `Failure` for an exception the client raises to its caller.
 */
module Results {

  datatype Option<+T> = None | Some(value: T)

  datatype Result<+T, +E> = Success(value: T) | Failure(error: E)
}

=== FILE: scenarios.dfy ===
/**
 Worked examples: small sessions followed through the model end to end.
 */
module Scenarios {
  import opened Results
  import opened Text
  import opened Control
  import opened Subscriptions
  import opened Clients
  import opened Stream

  /** Three subscriptions on a session with an empty table get the keys 1, 2 and 3, whatever the server answers. */
  lemma ThreeSubscriptions(c: Client, s: Subscription, a: Reply, b: Reply, d: Reply)
    requires HasSession(c) && c.lastKey == 0 && c.subscriptions == map[]
    requires !a.Broken? && !b.Broken? && !d.Broken?
    ensures var s1 := Subscribe(c, s, a);
      var s2 := Subscribe(s1.client, s, b);
      var s3 := Subscribe(s2.client, s, d);
      && s1.key == Success(1) && s2.key == Success(2) && s3.key == Success(3)
      && s3.client.subscriptions.Keys == {1, 2, 3}
  {
    var s1 := Subscribe(c, s, a);
    assert s1.client.lastKey == 1 && HasSession(s1.client);
    assert s1.client.subscriptions.Keys == {1};
    var s2 := Subscribe(s1.client, s, b);
    assert s2.client.lastKey == 2 && HasSession(s2.client);
    assert s2.client.subscriptions.Keys == {1, 2};
    var s3 := Subscribe(s2.client, s, d);
    assert s3.client.subscriptions.Keys == {1, 2, 3};
  }

  /** Without a session the subscription is still registered and its key consumed, though the call raises. */
  lemma SubscribeWithoutSession(s: Subscription, reply: Reply)
    ensures var r := Subscribe(NewClient(Config("u", "p", "DEMO")), s, reply);
      r.key == Failure(NoSession) && r.client.subscriptions == map[1 := s] && r.client.lastKey == 1
  {
  }

  lemma JoinThree(a: string, b: string, d: string, sep: char)
    ensures Join([a, b, d], sep) == a + [sep] + b + [sep] + d
  {
    assert [a, b, d][1..] == [b, d];
    assert [b, d][1..] == [d];
    assert Join([b, d], sep) == b + [sep] + d;
    assert Join([a, b, d], sep) == a + [sep] + (b + [sep] + d);
  }

  lemma RenderedLines()
    ensures ItemLine(1, ["A", ""]) == "1|A|"
    ensures ItemLine(1, ["", "B"]) == "1||B"
    ensures ItemLine(1, ["$A", ""]) == "1|$A|"
    ensures ItemLine(0, ["A", "B"]) == "0|A|B"
    ensures ItemLine(2, ["A", "B"]) == "2|A|B"
    ensures Join(["x", "A", "B"], '|') == "x|A|B"
  {
    assert IntToString(0) == "0" && IntToString(1) == "1" && IntToString(2) == "2";
    assert [IntToString(1)] + ["A", ""] == ["1", "A", ""];
    assert [IntToString(1)] + ["", "B"] == ["1", "", "B"];
    assert [IntToString(1)] + ["$A", ""] == ["1", "$A", ""];
    assert [IntToString(0)] + ["A", "B"] == ["0", "A", "B"];
    assert [IntToString(2)] + ["A", "B"] == ["2", "A", "B"];
    JoinThree("1", "A", "", '|');
    JoinThree("1", "", "B", '|');
    JoinThree("1", "$A", "", '|');
    JoinThree("0", "A", "B", '|');
    JoinThree("2", "A", "B", '|');
    JoinThree("x", "A", "B", '|');
  }

  /** Two distinct fields, each decoded against its own cached value. */
  lemma TwoFieldEntry(f0: string, f1: string, t0: string, t1: string, prior: Entry)
    requires f0 != f1
    ensures MergeEntry([f0, f1], [t0, t1], prior) ==
      map[f0 := FieldCodec.Decode(t0, Previous(prior, f0)), f1 := FieldCodec.Decode(t1, Previous(prior, f1))]
  {
    var fields := [f0, f1];
    var ts := [t0, t1];
    assert Paired(fields, ts) == 2;
    assert LastCounted(fields, ts, 2, 0, false);
    assert LastCounted(fields, ts, 2, 1, false);
    var e := MergeEntry(fields, ts, prior);
    assert e.Keys == {f0, f1} by {
      assert (set i | 0 <= i < 2 :: fields[i]) == {f0, f1} by {
        assert fields[0] == f0 && fields[1] == f1;
      }
    }
    assert e[fields[0]] == FieldCodec.Decode(ts[0], Previous(prior, fields[0]));
    assert e[fields[1]] == FieldCodec.Decode(ts[1], Previous(prior, fields[1]));
  }

  /** A quote subscription in the default mode, before any update: fields `bid` and `ask`, one item. */
  predicate FreshQuotes(s: Subscription) {
    s.fields == ["bid", "ask"] && s.items == ["item1"] && s.cache == map[]
  }

  /** The entry a default-mode quote update with tokens `[t0, t1]` builds over `prior`. */
  function QuoteEntry(prior: Entry, t0: string, t1: string): (r: Entry) {
    map["bid" := FieldCodec.Decode(t0, Previous(prior, "bid")), "ask" := FieldCodec.Decode(t1, Previous(prior, "ask"))]
  }

  /** What a default-mode quote update returns when item 1's entry becomes `e`. */
  function QuoteResult(s: Subscription, e: Entry): (r: Result<Updated, UpdateError>) {
    Success(Updated(s.(cache := s.cache[1 := e]), ItemEvent(1, "item1", e)))
  }

  /** One default-mode update of item 1 with the tokens `[t0, t1]`, over the entry `prior` cached for it. */
  lemma QuoteUpdate(s: Subscription, t0: string, t1: string, prior: Entry)
    requires s.fields == ["bid", "ask"] && s.items == ["item1"] && !s.newValuesOnly
    requires Cached(s.cache, 1) == prior
    requires PlainToken(t0) && PlainToken(t1)
    ensures NotifyUpdate(s, ItemLine(1, [t0, t1])) == QuoteResult(s, QuoteEntry(prior, t0, t1))
  {
    TwoFieldEntry("bid", "ask", t0, t1, prior);
    ItemLineUpdate(s, 1, [t0, t1]);
  }

  /**
   A quote subscription as a caller creates it (merge mode, one item, fields
   `bid` and `ask`, snapshot on): no listener and nothing cached yet, and its
   first update of item 1 stores and reports the two decoded tokens.
   */
  lemma NewQuoteSubscription(t0: string, t1: string)
    requires PlainToken(t0) && PlainToken(t1)
    ensures var s := NewSubscription("MERGE", ["item1"], ["bid", "ask"], "QUOTE_ADAPTER", true, false);
      && FreshQuotes(s) && s.listeners == []
      && NotifyUpdate(s, ItemLine(1, [t0, t1])) == QuoteResult(s, QuoteEntry(map[], t0, t1))
  {
    var s := NewSubscription("MERGE", ["item1"], ["bid", "ask"], "QUOTE_ADAPTER", true, false);
    QuoteUpdate(s, t0, t1, map[]);
  }

  /** The entry after `1|x|`, and after `1|x|` then `1||y`. */
  function AfterFirst(x: string): (r: Entry) {
    map["bid" := FieldCodec.Decode(x, None), "ask" := None]
  }

  function AfterSecond(x: string, y: string): (r: Entry) {
    map["bid" := FieldCodec.Decode(x, None), "ask" := FieldCodec.Decode(y, None)]
  }

  lemma QuoteEntries(x: string, y: string)
    ensures QuoteEntry(map[], x, "") == AfterFirst(x)
    ensures QuoteEntry(AfterFirst(x), "", y) == AfterSecond(x, y)
  {
    assert Previous(map[], "bid") == None && Previous(map[], "ask") == None;
    assert Previous(AfterFirst(x), "bid") == FieldCodec.Decode(x, None);
    assert Previous(AfterFirst(x), "ask") == None;
  }

  /** The two results below, read field by field. */
  lemma TwoQuotesShape(s: Subscription, x: string, y: string, u1: Result<Updated, UpdateError>, u2: Result<Updated, UpdateError>)
    requires s.cache == map[]
    requires u1 == QuoteResult(s, AfterFirst(x))
    requires u2 == QuoteResult(u1.value.sub, AfterSecond(x, y))
    ensures && u1.Success?
      && u1.value.event.values == map["bid" := FieldCodec.Decode(x, None), "ask" := None]
      && u2.Success?
      && u2.value.event == ItemEvent(1, "item1", map["bid" := FieldCodec.Decode(x, None), "ask" := FieldCodec.Decode(y, None)])
      && u2.value.sub.cache == map[1 := u2.value.event.values]
  {
    assert u1.value.sub.cache == map[1 := AfterFirst(x)];
    assert u1.value.sub.cache[1 := AfterSecond(x, y)] == map[1 := AfterSecond(x, y)];
  }

  /**
   `1|x|` then `1||y` (for `x` = `A`, `y` = `B` these are the lines of
   `RenderedLines`): the first update leaves `ask` null, the empty token of
   the second keeps `bid`, and the cache ends up holding both values.
   */
  lemma MergeTwoUpdates(s: Subscription, x: string, y: string)
    requires FreshQuotes(s) && !s.newValuesOnly
    requires PlainToken(x) && PlainToken(y)
    ensures var u1 := NotifyUpdate(s, ItemLine(1, [x, ""]));
      && u1.Success?
      && u1.value.event.values == map["bid" := FieldCodec.Decode(x, None), "ask" := None]
      && var u2 := NotifyUpdate(u1.value.sub, ItemLine(1, ["", y]));
      && u2.Success?
      && u2.value.event == ItemEvent(1, "item1", map["bid" := FieldCodec.Decode(x, None), "ask" := FieldCodec.Decode(y, None)])
      && u2.value.sub.cache == map[1 := u2.value.event.values]
  {
    QuoteEntries(x, y);
    QuoteUpdate(s, x, "", map[]);
    var u1 := NotifyUpdate(s, ItemLine(1, [x, ""]));
    var sub := s.(cache := s.cache[1 := AfterFirst(x)]);
    assert Cached(sub.cache, 1) == AfterFirst(x);
    QuoteUpdate(sub, "", y, AfterFirst(x));
    TwoQuotesShape(s, x, y, u1, NotifyUpdate(sub, ItemLine(1, ["", y])));
  }

  /** A two-field new-values event where only the first token is non-empty. */
  lemma FirstNewValue(f0: string, f1: string, t0: string)
    requires f0 != f1 && t0 != ""
    ensures NewValues([f0, f1], [t0, ""]) == map[f0 := Some(t0)]
  {
    var ts := [t0, ""];
    var fields := [f0, f1];
    assert Paired(fields, ts) == 2;
    assert Distinct(fields);
    var v := NewValues(fields, ts);
    assert v.Keys == {f0} by {
      assert (set i | 0 <= i < 2 && ts[i] != "" :: fields[i]) == {f0} by {
        assert ts[1] == "" && ts[0] != "";
      }
    }
  }

  /** In new-values mode `1|$x|` reports the raw token, marker included, and the cache stays as it was. */
  lemma RawModeUpdate(s: Subscription, x: string)
    requires FreshQuotes(s) && s.newValuesOnly && PlainToken(x)
    ensures var u := NotifyUpdate(s, ItemLine(1, ["$" + x, ""]));
      u == Success(Updated(s, ItemEvent(1, "item1", map["bid" := Some("$" + x)])))
  {
    var ts := ["$" + x, ""];
    assert PlainToken(ts[0]) && PlainToken(ts[1]);
    ItemLineUpdate(s, 1, ts);
    FirstNewValue("bid", "ask", "$" + x);
  }

  /** An item position of 0 reads Python's last item, as the negative index -1 does. */
  lemma ZeroPositionReadsLastItem(s: Subscription, ts: seq<string>)
    requires FreshQuotes(s)
    requires forall i :: 0 <= i < |ts| ==> PlainToken(ts[i])
    ensures var u := NotifyUpdate(s, ItemLine(0, ts));
      u.Success? && u.value.event.name == "item1" && u.value.event.pos == 0
  {
    ItemLineAt(s, 0, ts);
    assert PyIndex(s.items, -1) == Some("item1");
  }

  /** A position one past the last item is reported as a missing item. */
  lemma PastTheEndIsMissing(s: Subscription, ts: seq<string>)
    requires FreshQuotes(s)
    requires forall i :: 0 <= i < |ts| ==> PlainToken(ts[i])
    ensures NotifyUpdate(s, ItemLine(2, ts)) == Failure(NoSuchItem(2))
  {
    TokensOfItemLine(2, ts);
    ParseIntRoundTrip(2);
  }

  /** A position that is not an integer is rejected before any item is looked up. */
  lemma NonNumericPosition(s: Subscription)
    ensures NotifyUpdate(s, Join(["x", "A", "B"], '|')) == Failure(BadPosition)
  {
    TokensOfJoin(["x", "A", "B"]);
    assert ParseInt("x").None?;
  }

  /** A word followed by any whitespace terminator (CRLF, LF, nothing) reads back as the word. */
  lemma ReadsWord(w: string, eol: string)
    requires w != "" && !IsSpace(w[|w| - 1]) && IsBlank(eol)
    ensures ReadLine(w + eol) == w
  {
    RStripByKeeps(w, eol, Whitespace);
  }

  lemma ControlWord(w: string, eol: string, m: Message)
    requires (w, m) in {("LOOP", Loop), ("END", End), ("PROBE", Probe), ("OK", Data("OK"))}
    requires IsBlank(eol)
    ensures ReadLine(w + eol) == w && Classify(w) == m
  {
    ReadsWord(w, eol);
    ClassifyVocabulary("");
    assert "LOOP" + "" == "LOOP" && "END" + "" == "END";
  }

  /** `PROBE` is skipped: the reader goes on with the next line, and nothing is dispatched for it. */
  lemma ProbeContinues(c: Client, eol: string, rest: seq<string>)
    requires IsBlank(eol)
    ensures var r := Receive(c, ["PROBE" + eol] + rest);
      var s := Receive(c, rest);
      r == Received(s.client, s.deliveries, s.ending, s.stop + 1)
  {
    ControlWord("PROBE", eol, Probe);
    SkipsKeepalive(c, "PROBE" + eol, rest);
  }

  /** `END` stops the reader at once and clears the session, the table and the key counter; no rebind happens. */
  lemma EndResets(c: Client, eol: string, rest: seq<string>, conns: seq<Connection>)
    requires IsBlank(eol)
    ensures StreamTask(c, ["END" + eol] + rest, conns) ==
      Task(c.(streamOpen := false, session := map[], subscriptions := map[], lastKey := 0), [], 0, Closed)
  {
    ControlWord("END", eol, End);
    StopsOnTerminal(c, "END" + eol, rest);
  }

  /**
   `LOOP` stops the reader and rebinds: the bind answers `OK` with an empty
   header block, the rebind counter goes up by one, and a new reader
   continues on the new connection with the table as it was.
   */
  lemma LoopRebinds(c: Client, eol: string, rest: seq<string>, next: seq<string>, conns: seq<Connection>)
    requires HasSession(c) && IsBlank(eol)
    ensures var t := StreamTask(c, ["LOOP" + eol] + rest, [Opened(["OK" + eol, "\r\n"] + next)] + conns);
      var u := StreamTask(c.(streamOpen := true, bindCount := c.bindCount + 1), next, conns);
      t == Task(u.client, u.deliveries, u.binds + 1, u.end)
  {
    ControlWord("LOOP", eol, Loop);
    StopsOnTerminal(c, "LOOP" + eol, rest);
    RebindOnOk(c, eol, next);
    LoopFirst(c, ["LOOP" + eol] + rest, Opened(["OK" + eol, "\r\n"] + next), conns,
      Started(c.(streamOpen := true, bindCount := c.bindCount + 1), next));
  }

  /** `Stream.TaskAfterLoop` for a reader whose first line is LOOP: nothing was delivered before the rebind. */
  lemma LoopFirst(c: Client, stream: seq<string>, conn: Connection, conns: seq<Connection>, h: Handshake)
    requires Receive(c, stream) == Received(c, [], Loop, 0)
    requires Bind(c, conn) == h && h.Started?
    ensures var u := StreamTask(h.client, h.stream, conns);
      StreamTask(c, stream, [conn] + conns) == Task(u.client, u.deliveries, u.binds + 1, u.end)
  {
    TaskAfterLoop(c, stream, conn, conns, h);
    var u := StreamTask(h.client, h.stream, conns);
    assert [] + u.deliveries == u.deliveries;
  }

  /** A rebind answered `OK` with an empty header block starts a reader on what follows, with the counter one up. */
  lemma RebindOnOk(c: Client, eol: string, next: seq<string>)
    requires HasSession(c) && IsBlank(eol)
    ensures Bind(c, Opened(["OK" + eol, "\r\n"] + next)) == Started(c.(streamOpen := true, bindCount := c.bindCount + 1), next)
  {
    ControlWord("OK", eol, Data("OK"));
    var bound := c.(streamOpen := true, bindCount := c.bindCount + 1);
    var lines := ["OK" + eol, "\r\n"] + next;
    ParseHeadersRoundTrip(bound, [], next);
    assert HeaderLines([]) + ["\r\n"] + next == lines[1..];
    assert Store(bound.session, []) == bound.session;
  }
}

=== FILE: stream.dfy ===
/**
 The stream connection: the session handshake, the reader loop that
 classifies each pushed line against the protocol vocabulary, and what
 happens when the loop ends (a reset of the session, or a rebind on LOOP).
 The lines of a connection are an input; the background thread is the
 function that consumes them.
 */
module Stream {
  import opened Results
  import opened Text
  import opened Subscriptions
  import opened Clients

  /** `_read_from_stream`: one line of the stream, trailing whitespace removed. */
  function ReadLine(raw: string): (r: string)
    ensures r == [] <==> IsBlank(raw)
    ensures |r| <= |raw| && r == raw[..|r|] && (r == [] || !IsSpace(r[|r| - 1]))
    ensures forall i :: |r| <= i < |raw| ==> IsSpace(raw[i])
  {
    RStripBlank(raw);
    RStrip(raw)
  }

  /** The kinds of line the reader tells apart. */
  datatype Message = Blank | Probe | Error | Loop | SyncError | End | Preamble | Data(line: string)

  /** A line that ends the reading loop: everything but keepalives, preambles and data. */
  predicate Terminal(m: Message) {
    !(m.Probe? || m.Preamble? || m.Data?)
  }

  /**
   The reader's classification, in its priority order: blank, exactly
   `PROBE`, then the prefixes `ERROR`, `LOOP`, `SYNC ERROR`, `END` and
   `Preamble`; any other line is data.
   */
  function Classify(m: string): (r: Message)
    ensures r == Blank <==> IsBlank(m)
    ensures r == Probe <==> !IsBlank(m) && m == "PROBE"
    ensures r.Data? ==> r.line == m && !StartsWith(m, "ERROR") && !StartsWith(m, "LOOP") && !StartsWith(m, "END")
    ensures && !IsBlank(m) && m != "PROBE"
      && !StartsWith(m, "ERROR") && !StartsWith(m, "LOOP") && !StartsWith(m, "SYNC ERROR")
      && !StartsWith(m, "END") && !StartsWith(m, "Preamble")
      ==> r == Data(m)
  {
    if IsBlank(m) then Blank
    else if m == "PROBE" then Probe
    else if StartsWith(m, "ERROR") then Error
    else if StartsWith(m, "LOOP") then Loop
    else if StartsWith(m, "SYNC ERROR") then SyncError
    else if StartsWith(m, "END") then End
    else if StartsWith(m, "Preamble") then Preamble
    else Data(m)
  }

  /**
   No word of the vocabulary is shadowed by an earlier test: each control
   word, followed by anything, gets its own class.
   */
  lemma ClassifyVocabulary(rest: string)
    ensures Classify("PROBE") == Probe
    ensures Classify("ERROR" + rest) == Error
    ensures Classify("LOOP" + rest) == Loop
    ensures Classify("SYNC ERROR" + rest) == SyncError
    ensures Classify("END" + rest) == End
    ensures Classify("Preamble" + rest) == Preamble
  {
    assert !IsSpace("PROBE"[0]);
    ClassifyError(rest);
    ClassifyLoop(rest);
    ClassifySyncError(rest);
    ClassifyEnd(rest);
    ClassifyPreamble(rest);
  }

  /** A line whose first character is not whitespace is not blank. */
  lemma NotBlank(m: string)
    requires |m| > 0 && !IsSpace(m[0])
    ensures !IsBlank(m)
  {
  }

  lemma ClassifyError(rest: string)
    ensures Classify("ERROR" + rest) == Error
  {
    var m := "ERROR" + rest;
    NotBlank(m);
    assert m[..5] == "ERROR";
  }

  lemma ClassifyLoop(rest: string)
    ensures Classify("LOOP" + rest) == Loop
  {
    var m := "LOOP" + rest;
    NotBlank(m);
    assert m[..4] == "LOOP";
  }

  lemma ClassifySyncError(rest: string)
    ensures Classify("SYNC ERROR" + rest) == SyncError
  {
    var m := "SYNC ERROR" + rest;
    NotBlank(m);
    assert m[..10] == "SYNC ERROR";
    assert m[0] == 'S';
  }

  lemma ClassifyEnd(rest: string)
    ensures Classify("END" + rest) == End
  {
    var m := "END" + rest;
    NotBlank(m);
    assert m[..3] == "END";
    assert m[1] == 'N';
  }

  lemma ClassifyPreamble(rest: string)
    ensures Classify("Preamble" + rest) == Preamble
  {
    var m := "Preamble" + rest;
    NotBlank(m);
    assert m[..8] == "Preamble";
    assert m[0] == 'P' && m[1] == 'r';
  }

  /** A data line `<key>,<item line>` is always classified as data. */
  lemma ClassifyDataLine(key: int, item: string)
    ensures Classify(IntToString(key) + "," + item) == Data(IntToString(key) + "," + item)
  {
    var m := IntToString(key) + "," + item;
    IntToStringChars(key);
    assert m[0] == IntToString(key)[0];
    assert !IsSpace(m[0]);
  }

  /** What one run of the reader loop produced, and where it stopped. */
  datatype Received = Received(client: Client, deliveries: seq<Delivery>, ending: Message, stop: nat)

  /**
   `_receive`'s loop over the raw lines of a stream connection: keepalives
   and preambles are skipped, data lines are forwarded, and the first
   terminal line ends it (running out of lines reads as a blank line). It
   never touches the session or the set of keys; forwarding only updates
   subscriptions' caches.
   */
  function Receive(c: Client, lines: seq<string>): (r: Received)
    ensures r.stop <= |lines|
    ensures Terminal(r.ending)
    ensures r.client.(subscriptions := c.subscriptions) == c
    ensures r.client.subscriptions.Keys == c.subscriptions.Keys
    decreases |lines|
  {
    if |lines| == 0 then Received(c, [], Blank, 0)
    else
      var m := Classify(ReadLine(lines[0]));
      if Terminal(m) then Received(c, [], m, 0)
      else if m.Data? then
        var f := Forward(c, m.line);
        var rest := Receive(f.0, lines[1..]);
        Received(rest.client, f.1 + rest.deliveries, rest.ending, rest.stop + 1)
      else
        var rest := Receive(c, lines[1..]);
        Received(rest.client, rest.deliveries, rest.ending, rest.stop + 1)
  }

  /** The loop stops at the first terminal line and reports its class; with no terminal line it reads every line and reports a blank one. */
  lemma {:induction false} ReceiveStops(c: Client, lines: seq<string>)
    ensures var r := Receive(c, lines);
      && (forall i :: 0 <= i < r.stop ==> !Terminal(Classify(ReadLine(lines[i]))))
      && (r.stop < |lines| ==> r.ending == Classify(ReadLine(lines[r.stop])))
      && (r.stop == |lines| ==> r.ending == Blank)
    decreases |lines|
  {
    if |lines| > 0 {
      var m := Classify(ReadLine(lines[0]));
      if !Terminal(m) {
        var next := if m.Data? then Forward(c, m.line).0 else c;
        var rest := Receive(next, lines[1..]);
        ReceiveStops(next, lines[1..]);
        var r := Receive(c, lines);
        assert r.stop == rest.stop + 1 && r.ending == rest.ending;
        StopsAfter(lines, r.stop, r.ending);
      }
    }
  }

  /**
   The inductive step of `ReceiveStops`, on the stopping point alone: a
   non-terminal first line followed by lines that stop at `stop - 1` with
   class `ending` stop at `stop` with the same class.
   */
  lemma StopsAfter(lines: seq<string>, stop: nat, ending: Message)
    requires |lines| > 0 && !Terminal(Classify(ReadLine(lines[0])))
    requires 1 <= stop <= |lines|
    requires forall i :: 0 <= i < stop - 1 ==> !Terminal(Classify(ReadLine(lines[1..][i])))
    requires stop - 1 < |lines[1..]| ==> ending == Classify(ReadLine(lines[1..][stop - 1]))
    requires stop - 1 == |lines[1..]| ==> ending == Blank
    ensures forall i :: 0 <= i < stop ==> !Terminal(Classify(ReadLine(lines[i])))
    ensures stop < |lines| ==> ending == Classify(ReadLine(lines[stop]))
    ensures stop == |lines| ==> ending == Blank
  {
    forall i | 0 < i < stop
      ensures !Terminal(Classify(ReadLine(lines[i])))
    {
      assert lines[i] == lines[1..][i - 1];
    }
    if stop < |lines| {
      assert lines[stop] == lines[1..][stop - 1];
    }
  }

  /** The payloads of the data lines among `lines`, in order. */
  function DataMessages(lines: seq<string>): (r: seq<string>) {
    if |lines| == 0 then []
    else
      var m := Classify(ReadLine(lines[0]));
      (if m.Data? then [m.line] else []) + DataMessages(lines[1..])
  }

  /** One data message through `_forward_update_message`: the client afterwards and the listener calls made. */
  function Forward(c: Client, msg: string): (r: (Client, seq<Delivery>))
    ensures r.0.(subscriptions := c.subscriptions) == c
    ensures r.0.subscriptions.Keys == c.subscriptions.Keys
  {
    var f := ForwardUpdate(c, msg);
    (f.client, f.deliveries)
  }

  /** Forwarding data messages one after the other. */
  function ForwardAll(c: Client, msgs: seq<string>): (r: (Client, seq<Delivery>))
    decreases |msgs|
  {
    if |msgs| == 0 then (c, [])
    else
      var f := Forward(c, msgs[0]);
      var rest := ForwardAll(f.0, msgs[1..]);
      (rest.0, f.1 + rest.1)
  }

  /** The loop's effect is exactly that of forwarding, in order, the data lines before the line that stopped it. */
  lemma {:induction false} ReceiveForwardsData(c: Client, lines: seq<string>)
    ensures var r := Receive(c, lines);
      ForwardAll(c, DataMessages(lines[..r.stop])) == (r.client, r.deliveries)
    decreases |lines|
  {
    var r := Receive(c, lines);
    if |lines| == 0 {
      assert lines[..r.stop] == [];
    } else {
      var m := Classify(ReadLine(lines[0]));
      if Terminal(m) {
        assert lines[..r.stop] == [];
      } else {
        var next := if m.Data? then Forward(c, m.line).0 else c;
        var rest := Receive(next, lines[1..]);
        ReceiveForwardsData(next, lines[1..]);
        var pre := lines[..r.stop];
        assert r.stop == rest.stop + 1;
        assert pre[0] == lines[0] && pre[1..] == lines[1..][..rest.stop];
        var ms := DataMessages(lines[1..][..rest.stop]);
        if m.Data? {
          var f := Forward(c, m.line);
          assert r == Received(rest.client, f.1 + rest.deliveries, rest.ending, rest.stop + 1);
          assert DataMessages(pre) == [m.line] + ms;
          assert ([m.line] + ms)[1..] == ms;
        } else {
          assert r == Received(rest.client, rest.deliveries, rest.ending, rest.stop + 1);
          assert DataMessages(pre) == ms;
        }
      }
    }
  }

  /** A keepalive or preamble line is skipped: the loop goes on with the next line and nothing is dispatched. */
  lemma SkipsKeepalive(c: Client, line: string, rest: seq<string>)
    requires Classify(ReadLine(line)) == Probe || Classify(ReadLine(line)) == Preamble
    ensures var r := Receive(c, [line] + rest);
      var s := Receive(c, rest);
      r == Received(s.client, s.deliveries, s.ending, s.stop + 1)
  {
    assert ([line] + rest)[1..] == rest;
  }

  /** A terminal line ends the loop at once, with nothing dispatched and the client untouched. */
  lemma StopsOnTerminal(c: Client, line: string, rest: seq<string>)
    requires Terminal(Classify(ReadLine(line)))
    ensures Receive(c, [line] + rest) == Received(c, [], Classify(ReadLine(line)), 0)
  {
  }

  /**
   The end of `_receive`. Without LOOP the stream connection, the session,
   the table and the key counter are all cleared (the rebind counter is
   kept). On LOOP nothing is cleared: `bind` is called next.
   */
  function EndStream(c: Client, ending: Message): (r: Client)
    requires Terminal(ending)
    ensures ending != Loop ==>
      && r.session == map[] && r.subscriptions == map[] && r.lastKey == 0 && !r.streamOpen
      && r.bindCount == c.bindCount && r.config == c.config
    ensures ending == Loop ==> r == c
    ensures Valid(c) ==> Valid(r)
  {
    if ending == Loop then c
    else c.(streamOpen := false, session := map[], subscriptions := map[], lastKey := 0)
  }

  /** A stream connection as an input: the raw lines the server sent, or a request that failed. */
  datatype Connection = Opened(lines: seq<string>) | Failed

  /** How a handshake (`_handle_stream`) ended. */
  datatype Handshake =
    | Started(client: Client, stream: seq<string>)    // `OK` and the headers were read; a reader runs on `stream`
    | Refused(client: Client, response: seq<string>)  // the first line was not `OK`, and the call raises; `response` is what the connection held
    | BadHeader(client: Client, line: string)         // a header line without `:` raised
    | Unreachable(client: Client)                     // the HTTP request itself raised
    | SessionMissing(client: Client)                  // a rebind without a `SessionId` raised before any request

  /**
   The header block after `OK`: `key:value` lines, split at the first colon
   and stored in the session, up to the first blank line (or the end of the
   connection). The reader starts on the lines after the blank one.
   */
  function ParseHeaders(c: Client, lines: seq<string>): (r: Handshake)
    ensures r.Started? || r.BadHeader?
    ensures r.client.(session := c.session) == c
    ensures c.session.Keys <= r.client.session.Keys
    ensures r.Started? ==> |r.stream| <= |lines| && r.stream == lines[|lines| - |r.stream|..]
    ensures r.BadHeader? ==> r.line != "" && ':' !in r.line
    decreases |lines|
  {
    if |lines| == 0 then Started(c, [])
    else
      var line := ReadLine(lines[0]);
      if line == "" then Started(c, lines[1..])
      else
        match SplitOnce(line, ':')
        case None => BadHeader(c, line)
        case Some((key, value)) =>
          var r := ParseHeaders(c.(session := c.session[key := value]), lines[1..]);
          assert r.Started? ==> lines[1..][|lines| - 1 - |r.stream|..] == lines[|lines| - |r.stream|..];
          r
  }

  /** A non-empty header line without a colon raises at once: the `split(":", 1)` result cannot be unpacked into a key and a value. */
  lemma HeaderWithoutColon(c: Client, l: string, rest: seq<string>)
    requires ReadLine(l) != "" && ':' !in ReadLine(l)
    ensures ParseHeaders(c, [l] + rest) == BadHeader(c, ReadLine(l))
  {
    assert ([l] + rest)[0] == l;
  }

  /** A header line as a server writes it: `key:value` and a CRLF terminator. */
  function HeaderLine(h: (string, string)): (r: string) {
    h.0 + ":" + h.1 + "\r\n"
  }

  function HeaderLines(hs: seq<(string, string)>): (r: seq<string>) {
    if |hs| == 0 then [] else [HeaderLine(hs[0])] + HeaderLines(hs[1..])
  }

  /** A header that reads back as written: no colon in the key, and a value not ending in whitespace. */
  predicate PlainHeader(h: (string, string)) {
    ':' !in h.0 && (h.1 == "" || !IsSpace(h.1[|h.1| - 1]))
  }

  /** Storing headers one after the other; a later header with the same key wins. */
  function Store(session: map<string, string>, hs: seq<(string, string)>): (r: map<string, string>)
    decreases |hs|
  {
    if |hs| == 0 then session else Store(session[hs[0].0 := hs[0].1], hs[1..])
  }

  lemma HeaderLineReads(h: (string, string))
    requires PlainHeader(h)
    ensures ReadLine(HeaderLine(h)) == h.0 + ":" + h.1
    ensures SplitOnce(ReadLine(HeaderLine(h)), ':') == Some((h.0, h.1))
  {
    var body := h.0 + ":" + h.1;
    assert HeaderLine(h) == body + "\r\n";
    assert body[|body| - 1] == if h.1 == "" then ':' else h.1[|h.1| - 1];
    RStripByKeeps(body, "\r\n", Whitespace);
    SplitOnceJoin(h.0, ':', h.1);
    assert h.0 + [':'] + h.1 == body;
  }

  /** Parsing a header block written by a server gives back its headers, and the reader starts right after the blank line. */
  lemma {:induction false} ParseHeadersRoundTrip(c: Client, hs: seq<(string, string)>, rest: seq<string>)
    requires forall i :: 0 <= i < |hs| ==> PlainHeader(hs[i])
    ensures ParseHeaders(c, HeaderLines(hs) + ["\r\n"] + rest) == Started(c.(session := Store(c.session, hs)), rest)
    decreases |hs|
  {
    var lines := HeaderLines(hs) + ["\r\n"] + rest;
    if |hs| == 0 {
      assert lines == ["\r\n"] + rest;
      BlankLineEndsHeaders(c, rest);
    } else {
      var tail := HeaderLines(hs[1..]) + ["\r\n"] + rest;
      assert lines == [HeaderLine(hs[0])] + tail;
      HeaderStep(c, hs[0], tail);
      ParseHeadersRoundTrip(c.(session := c.session[hs[0].0 := hs[0].1]), hs[1..], rest);
    }
  }

  /** The empty line ends the header block, and the reader starts on the lines after it. */
  lemma BlankLineEndsHeaders(c: Client, rest: seq<string>)
    ensures ParseHeaders(c, ["\r\n"] + rest) == Started(c, rest)
  {
    RStripByKeeps("", "\r\n", Whitespace);
    assert ReadLine("\r\n") == "";
    assert (["\r\n"] + rest)[1..] == rest;
  }

  /** One header line is stored under its key, and parsing goes on with the following lines. */
  lemma HeaderStep(c: Client, h: (string, string), tail: seq<string>)
    requires PlainHeader(h)
    ensures ParseHeaders(c, [HeaderLine(h)] + tail) == ParseHeaders(c.(session := c.session[h.0 := h.1]), tail)
  {
    HeaderLineReads(h);
    assert h.0 + ":" + h.1 != "";
    assert ([HeaderLine(h)] + tail)[1..] == tail;
  }

  /**
   `_handle_stream` on a freshly opened connection: the first line must be
   `OK`, then the header block is read; on any other first line the call
   raises. (With no further lines that is the `IOError`; when more lines
   follow, joining the byte lines with a text separator for the log raises
   a `TypeError` first. The model does not tell exception types apart.)
   */
  function HandleStream(c: Client, lines: seq<string>): (r: Handshake)
    ensures r.Refused? <==> |lines| == 0 || ReadLine(lines[0]) != "OK"
    ensures r.Refused? ==> r.client == c && |r.response| >= 1
    ensures !r.Unreachable? && !r.SessionMissing?
    ensures !r.Refused? ==> r.Started? || r.BadHeader?
    ensures r.client.(session := c.session) == c
    ensures c.session.Keys <= r.client.session.Keys
  {
    if |lines| == 0 then Refused(c, [""])
    else if ReadLine(lines[0]) != "OK" then Refused(c, [ReadLine(lines[0])] + lines[1..])
    else ParseHeaders(c, lines[1..])
  }

  /**
   `connect`: the create-session request opens the stream connection (kept
   even when the handshake then fails), and its handshake is read. Only the
   session and the stream flag can change.
   */
  function Connect(c: Client, conn: Connection): (r: Handshake)
    ensures conn.Failed? ==> r == Unreachable(c)
    ensures conn.Opened? ==> r.client.streamOpen && r.client.(session := c.session, streamOpen := c.streamOpen) == c
    ensures conn.Opened? ==> c.session.Keys <= r.client.session.Keys
    ensures conn.Opened? ==> (r.Refused? <==> |conn.lines| == 0 || ReadLine(conn.lines[0]) != "OK")
    ensures conn.Opened? && !r.Refused? ==> r.Started? || r.BadHeader?
  {
    match conn
    case Failed => Unreachable(c)
    case Opened(lines) => HandleStream(c.(streamOpen := true), lines)
  }

  /**
   `bind`: the session id is read first (its absence raises before any
   request), then the bind-session request replaces the stream connection,
   the rebind counter goes up by one, and the handshake is read again. The
   table and the key counter survive; the session only gains headers.
   */
  function Bind(c: Client, conn: Connection): (r: Handshake)
    ensures "SessionId" !in c.session ==> r == SessionMissing(c)
    ensures "SessionId" in c.session && conn.Failed? ==> r == Unreachable(c)
    ensures r.client.bindCount == c.bindCount + (if "SessionId" in c.session && conn.Opened? then 1 else 0)
    ensures "SessionId" in c.session && conn.Opened? ==> r.client.streamOpen && !r.SessionMissing? && !r.Unreachable?
    ensures "SessionId" in c.session && conn.Opened? ==>
      (r.Refused? <==> |conn.lines| == 0 || ReadLine(conn.lines[0]) != "OK")
    ensures "SessionId" in c.session && conn.Opened? && !r.Refused? ==> r.Started? || r.BadHeader?
    ensures r.client.subscriptions == c.subscriptions && r.client.lastKey == c.lastKey && r.client.config == c.config
    ensures c.session.Keys <= r.client.session.Keys
    ensures Valid(c) ==> Valid(r.client)
  {
    if "SessionId" !in c.session then SessionMissing(c)
    else
      match conn
      case Failed => Unreachable(c)
      case Opened(lines) => HandleStream(c.(streamOpen := true, bindCount := c.bindCount + 1), lines)
  }

  /** How a chain of stream readers ended. */
  datatype TaskEnd =
    | Closed                    // a reader stopped without LOOP and reset the client
    | BindFailed(h: Handshake)  // a rebind raised, ending the thread with nothing reset
    | Rebinding                 // a reader stopped on LOOP and no further connection is given

  datatype Task = Task(client: Client, deliveries: seq<Delivery>, binds: nat, end: TaskEnd)

  /**
   The stream thread and its successors: a reader runs on `stream`; if it
   stops without LOOP the client is reset, and on LOOP `bind` opens the next
   connection of `conns` and a new reader continues on it.
   */
  function StreamTask(c: Client, stream: seq<string>, conns: seq<Connection>): (r: Task)
    ensures r.binds <= |conns|
    ensures r.client.bindCount == c.bindCount + r.binds
    ensures r.client.config == c.config
    ensures r.end.Closed? ==>
      r.client.session == map[] && r.client.subscriptions == map[] && r.client.lastKey == 0 && !r.client.streamOpen
    ensures !r.end.Closed? ==>
      r.client.subscriptions.Keys == c.subscriptions.Keys && r.client.lastKey == c.lastKey && c.session.Keys <= r.client.session.Keys
    ensures Valid(c) ==> Valid(r.client)
    decreases |conns|
  {
    var rec := Receive(c, stream);
    if rec.ending != Loop then
      Task(EndStream(rec.client, rec.ending), rec.deliveries, 0, Closed)
    else if |conns| == 0 then
      Task(rec.client, rec.deliveries, 0, Rebinding)
    else
      var bound := "SessionId" in rec.client.session && conns[0].Opened?;
      var h := Bind(rec.client, conns[0]);
      if h.Started? then
        var rest := StreamTask(h.client, h.stream, conns[1..]);
        Task(rest.client, rec.deliveries + rest.deliveries, rest.binds + 1, rest.end)
      else
        Task(h.client, rec.deliveries, if bound then 1 else 0, BindFailed(h))
  }

  /** A reader that stops without LOOP resets the client, and the chain ends there with no rebind. */
  lemma TaskWithoutLoop(c: Client, stream: seq<string>, conns: seq<Connection>)
    requires Receive(c, stream).ending != Loop
    ensures var r := StreamTask(c, stream, conns);
      var rec := Receive(c, stream);
      && r.end == Closed && r.binds == 0
      && r.deliveries == rec.deliveries
      && r.client == EndStream(rec.client, rec.ending)
  {
  }

  /**
   A reader that stops on LOOP, at any line and after any data, followed by
   a successful rebind: the next reader continues on the new connection, its
   deliveries follow the first reader's, and one more rebind is counted.
   */
  lemma TaskAfterLoop(c: Client, stream: seq<string>, conn: Connection, conns: seq<Connection>, h: Handshake)
    requires Receive(c, stream).ending == Loop
    requires Bind(Receive(c, stream).client, conn) == h && h.Started?
    ensures var rec := Receive(c, stream);
      var u := StreamTask(h.client, h.stream, conns);
      StreamTask(c, stream, [conn] + conns) == Task(u.client, rec.deliveries + u.deliveries, u.binds + 1, u.end)
  {
    assert ([conn] + conns)[0] == conn && ([conn] + conns)[1..] == conns;
  }

  /** A rebind after LOOP that does not start a reader ends the chain with that handshake, and nothing is reset. */
  lemma TaskBindFails(c: Client, stream: seq<string>, conn: Connection, conns: seq<Connection>)
    requires Receive(c, stream).ending == Loop
    requires !Bind(Receive(c, stream).client, conn).Started?
    ensures var rec := Receive(c, stream);
      var h := Bind(rec.client, conn);
      var r := StreamTask(c, stream, [conn] + conns);
      && r.client == h.client && r.deliveries == rec.deliveries && r.end == BindFailed(h)
      && r.binds == h.client.bindCount - rec.client.bindCount
  {
    assert ([conn] + conns)[0] == conn;
  }
}

=== FILE: subscription.dfy ===
/**
 A subscription: its items, fields and delivery options, the listeners it
 notifies, and the per-item cache of decoded field values that incremental
 updates are merged into. Listeners are identities; notifying them is the
 ordered list of deliveries an update produces.
 */
module Subscriptions {
  import opened Results
  import opened Text
  import FieldCodec

  /** The identity of a registered listener callback. */
  type Listener = nat

  /** The decoded values of one item: field name to value (`None` is null). */
  type Entry = map<string, Option<string>>

  datatype Subscription = Subscription(
    mode: string,
    items: seq<string>,
    fields: seq<string>,
    adapter: string,
    snapshot: bool,
    newValuesOnly: bool,
    listeners: seq<Listener>,
    cache: map<int, Entry>)

  /** A fresh subscription: no listeners yet and nothing cached. */
  function NewSubscription(mode: string, items: seq<string>, fields: seq<string>, adapter: string, snapshot: bool, newValuesOnly: bool): (r: Subscription) {
    Subscription(mode, items, fields, adapter, snapshot, newValuesOnly, [], map[])
  }

  /** The event handed to each listener. */
  datatype ItemEvent = ItemEvent(pos: int, name: string, values: Entry)

  datatype Delivery = Delivery(listener: Listener, event: ItemEvent)

  /** Calling every listener with `event`, in registration order. */
  function Notify(listeners: seq<Listener>, event: ItemEvent): (ds: seq<Delivery>)
    ensures |ds| == |listeners|
    ensures forall i :: 0 <= i < |ds| ==> ds[i] == Delivery(listeners[i], event)
  {
    if |listeners| == 0 then [] else [Delivery(listeners[0], event)] + Notify(listeners[1..], event)
  }

  /** `add_listener`: the listener goes to the end of the list; nothing else changes. */
  function AddListener(s: Subscription, l: Listener): (r: Subscription)
    ensures r.listeners == s.listeners + [l]
    ensures r.(listeners := s.listeners) == s
  {
    s.(listeners := s.listeners + [l])
  }

  /** A listener added later is called after every earlier one, with the same event. */
  lemma {:induction false} AddListenerNotifiesLast(s: Subscription, l: Listener, e: ItemEvent)
    ensures Notify(AddListener(s, l).listeners, e) == Notify(s.listeners, e) + [Delivery(l, e)]
  {
    var a := Notify(AddListener(s, l).listeners, e);
    var b := Notify(s.listeners, e) + [Delivery(l, e)];
    assert |a| == |b|;
    forall i | 0 <= i < |a|
      ensures a[i] == b[i]
    {
      if i < |s.listeners| {
        assert (s.listeners + [l])[i] == s.listeners[i];
      }
    }
  }

  /** Python's `seq[i]`: negative indices count from the end; anything else out of range is an `IndexError`. */
  function PyIndex<T>(xs: seq<T>, i: int): (r: Option<T>)
    ensures r.Some? <==> -|xs| <= i < |xs|
    ensures 0 <= i < |xs| ==> r == Some(xs[i])
    ensures -|xs| <= i < 0 ==> r == Some(xs[|xs| + i])
  {
    if 0 <= i < |xs| then Some(xs[i])
    else if -|xs| <= i < 0 then Some(xs[|xs| + i])
    else None
  }

  /** Whether the token at index `i` takes part in the pairing (with `skipEmpty`, empty tokens do not). */
  predicate Counts(tokens: seq<string>, i: int, skipEmpty: bool)
    requires 0 <= i < |tokens|
  {
    !skipEmpty || tokens[i] != ""
  }

  /** No later counted pair among the first `n` reuses the name at index `i`, so its token is the one kept. */
  predicate LastCounted(names: seq<string>, tokens: seq<string>, n: nat, i: nat, skipEmpty: bool)
    requires n <= |names| && n <= |tokens|
  {
    forall j :: i < j < n && Counts(tokens, j, skipEmpty) ==> names[j] != names[i]
  }

  /**
   `dict(zip(names, tokens))` over the first `n` pairs, after dropping empty
   tokens when `skipEmpty` holds: a later pair overwrites an earlier one with
   the same name.
   */
  function PairUp(names: seq<string>, tokens: seq<string>, n: nat, skipEmpty: bool): (m: map<string, string>)
    requires n <= |names| && n <= |tokens|
    ensures m.Keys == set i | 0 <= i < n && Counts(tokens, i, skipEmpty) :: names[i]
    ensures forall i :: 0 <= i < n && Counts(tokens, i, skipEmpty) && LastCounted(names, tokens, n, i, skipEmpty) ==> m[names[i]] == tokens[i]
  {
    if n == 0 then map[]
    else
      var m := PairUp(names, tokens, n - 1, skipEmpty);
      CountedStep(names, tokens, n, skipEmpty);
      if Counts(tokens, n - 1, skipEmpty) then m[names[n - 1] := tokens[n - 1]] else m
  }

  /** The names counted among the first `n` pairs are those among the first `n - 1`, plus the last one if it counts. */
  lemma CountedStep(names: seq<string>, tokens: seq<string>, n: nat, skipEmpty: bool)
    requires 0 < n <= |names| && n <= |tokens|
    ensures (set i | 0 <= i < n && Counts(tokens, i, skipEmpty) :: names[i]) ==
      (set i | 0 <= i < n - 1 && Counts(tokens, i, skipEmpty) :: names[i]) + (if Counts(tokens, n - 1, skipEmpty) then {names[n - 1]} else {})
  {
    var keys := set i | 0 <= i < n && Counts(tokens, i, skipEmpty) :: names[i];
    var earlier := set i | 0 <= i < n - 1 && Counts(tokens, i, skipEmpty) :: names[i];
    if Counts(tokens, n - 1, skipEmpty) {
      assert keys == earlier + {names[n - 1]};
    } else {
      assert keys == earlier;
    }
  }

  /** The number of field/token pairs `zip` forms. */
  function Paired(fields: seq<string>, tokens: seq<string>): (n: nat)
    ensures n <= |fields| && n <= |tokens|
    ensures n == |fields| || n == |tokens|
  {
    if |fields| <= |tokens| then |fields| else |tokens|
  }

  /** `curr_item.get(k)`: the cached value, or null when the field was never cached. */
  function Previous(curr: Entry, field: string): (r: Option<string>) {
    if field in curr then curr[field] else None
  }

  /**
   The new cache entry of the default mode: exactly the paired field names,
   each holding its token decoded against the cached value, so an empty
   token keeps the old value and an unpaired field is dropped.
   */
  function MergeEntry(fields: seq<string>, tokens: seq<string>, curr: Entry): (e: Entry)
    ensures e.Keys == set i | 0 <= i < Paired(fields, tokens) :: fields[i]
    ensures forall i :: 0 <= i < Paired(fields, tokens) && LastCounted(fields, tokens, Paired(fields, tokens), i, false) ==>
      e[fields[i]] == FieldCodec.Decode(tokens[i], Previous(curr, fields[i]))
  {
    var n := Paired(fields, tokens);
    var raw := PairUp(fields, tokens, n, false);
    assert raw.Keys == set i | 0 <= i < n :: fields[i];
    map k | k in raw :: FieldCodec.Decode(raw[k], Previous(curr, k))
  }

  /**
   The event values of "new values only" mode: exactly the fields whose
   token is non-empty, each with its raw token (no marker is stripped).
   */
  function NewValues(fields: seq<string>, tokens: seq<string>): (e: Entry)
    ensures e.Keys == set i | 0 <= i < Paired(fields, tokens) && tokens[i] != "" :: fields[i]
    ensures forall i :: 0 <= i < Paired(fields, tokens) && tokens[i] != "" && LastCounted(fields, tokens, Paired(fields, tokens), i, true) ==>
      e[fields[i]] == Some(tokens[i])
  {
    var n := Paired(fields, tokens);
    var raw := PairUp(fields, tokens, n, true);
    assert raw.Keys == set i | 0 <= i < n && tokens[i] != "" :: fields[i];
    map k | k in raw :: Some(raw[k])
  }

  /** `_items_map.get(item_pos, {})`: the item's cached entry, or an empty one. */
  function Cached(cache: map<int, Entry>, pos: int): (r: Entry) {
    if pos in cache then cache[pos] else map[]
  }

  /** The tokens of an item line: trailing CR/LF removed, then split on `|`. */
  function Tokens(itemLine: string): (ts: seq<string>)
    ensures |ts| >= 1
  {
    Split(RStripBy(itemLine, LineEnd), '|')
  }

  /**
   What the tokens are: no token contains the bar, and joining them with
   the bar gives the line without its trailing CR and LF characters.
   */
  lemma TokensMeaning(l: string)
    ensures forall i :: 0 <= i < |Tokens(l)| ==> '|' !in Tokens(l)[i]
    ensures Join(Tokens(l), '|') == RStripBy(l, LineEnd)
  {
  }

  /** Why `notify_update` raised: the position is not an integer, or indexes no item. */
  datatype UpdateError = BadPosition | NoSuchItem(pos: int)

  datatype Updated = Updated(sub: Subscription, event: ItemEvent)

  /**
   `notify_update(item_line)`: the first token is the 1-based item position,
   the others align with the fields. In "new values only" mode the event
   carries the non-empty raw tokens and the cache is left alone; otherwise
   the item's cache entry is rebuilt by `MergeEntry` and is the event's
   values. The listeners to call are `Notify(sub.listeners, event)`.
   */
  function NotifyUpdate(s: Subscription, itemLine: string): (r: Result<Updated, UpdateError>)
    ensures r == Failure(BadPosition) <==> ParseInt(Tokens(itemLine)[0]).None?
    ensures r.Failure? && r.error.NoSuchItem? ==> ParseInt(Tokens(itemLine)[0]) == Some(r.error.pos) && !(-|s.items| <= r.error.pos - 1 < |s.items|)
    ensures r.Success? ==> var e := r.value.event;
      && ParseInt(Tokens(itemLine)[0]) == Some(e.pos)
      && PyIndex(s.items, e.pos - 1) == Some(e.name)
      && r.value.sub.listeners == s.listeners
    ensures r.Success? && s.newValuesOnly ==> r.value.sub == s && r.value.event.values == NewValues(s.fields, Tokens(itemLine)[1..])
    ensures r.Success? && !s.newValuesOnly ==> var e := r.value.event;
      && e.values == MergeEntry(s.fields, Tokens(itemLine)[1..], Cached(s.cache, e.pos))
      && r.value.sub == s.(cache := s.cache[e.pos := e.values])
  {
    var tokens := Tokens(itemLine);
    match ParseInt(tokens[0])
    case None => Failure(BadPosition)
    case Some(pos) =>
      match PyIndex(s.items, pos - 1)
      case None => Failure(NoSuchItem(pos))
      case Some(name) =>
        if s.newValuesOnly then
          Success(Updated(s, ItemEvent(pos, name, NewValues(s.fields, tokens[1..]))))
        else
          var entry := MergeEntry(s.fields, tokens[1..], Cached(s.cache, pos));
          Success(Updated(s.(cache := s.cache[pos := entry]), ItemEvent(pos, name, entry)))
  }

  /** No field name occurs twice. */
  predicate Distinct(names: seq<string>) {
    forall i, j :: 0 <= i < j < |names| ==> names[i] != names[j]
  }

  /** A token as the server sends it: no `|` inside, and no line terminator. */
  predicate PlainToken(t: string) {
    '|' !in t && '\r' !in t && '\n' !in t
  }

  /** The item line a server sends for item `pos` with field tokens `ts`. */
  function ItemLine(pos: int, ts: seq<string>): (r: string) {
    Join([IntToString(pos)] + ts, '|')
  }

  lemma {:induction false} JoinAvoids(parts: seq<string>, sep: char, c: char)
    requires c != sep
    requires forall i :: 0 <= i < |parts| ==> c !in parts[i]
    ensures c !in Join(parts, sep)
  {
    if |parts| > 1 {
      JoinAvoids(parts[1..], sep, c);
    }
  }

  /** Reading back a line joined from plain tokens gives the tokens. */
  lemma TokensOfJoin(parts: seq<string>)
    requires |parts| >= 1
    requires forall i :: 0 <= i < |parts| ==> PlainToken(parts[i])
    ensures Tokens(Join(parts, '|')) == parts
  {
    JoinAvoids(parts, '|', '\r');
    JoinAvoids(parts, '|', '\n');
    var l := Join(parts, '|');
    if |l| > 0 {
      assert l[|l| - 1] in l;
    }
    RStripByKeeps(l, [], LineEnd);
    assert l + [] == l;
    SplitJoin(parts, '|');
  }

  /** Reading back a rendered item line gives its position token and the field tokens. */
  lemma TokensOfItemLine(pos: int, ts: seq<string>)
    requires forall i :: 0 <= i < |ts| ==> PlainToken(ts[i])
    ensures Tokens(ItemLine(pos, ts)) == [IntToString(pos)] + ts
  {
    var parts := [IntToString(pos)] + ts;
    IntToStringChars(pos);
    forall i | 0 <= i < |parts|
      ensures PlainToken(parts[i])
    {
      if i > 0 {
        assert parts[i] == ts[i - 1];
      }
    }
    TokensOfJoin(parts);
  }

  /** A rendered item line for an item the subscription has is always accepted, and each mode builds its values from the field tokens. */
  lemma ItemLineUpdate(s: Subscription, pos: int, ts: seq<string>)
    requires 1 <= pos <= |s.items|
    requires forall i :: 0 <= i < |ts| ==> PlainToken(ts[i])
    ensures NotifyUpdate(s, ItemLine(pos, ts)) ==
      if s.newValuesOnly then Success(Updated(s, ItemEvent(pos, s.items[pos - 1], NewValues(s.fields, ts))))
      else
        var e := MergeEntry(s.fields, ts, Cached(s.cache, pos));
        Success(Updated(s.(cache := s.cache[pos := e]), ItemEvent(pos, s.items[pos - 1], e)))
  {
    var line := ItemLine(pos, ts);
    TokensOfItemLine(pos, ts);
    ParseIntRoundTrip(pos);
    assert Tokens(line)[1..] == ts;
  }

  /**
   Any position Python's indexing accepts, 0 and negative ones included,
   names the item `items[pos - 1]` and the update succeeds.
   */
  lemma ItemLineAt(s: Subscription, pos: int, ts: seq<string>)
    requires -|s.items| <= pos - 1 < |s.items|
    requires forall i :: 0 <= i < |ts| ==> PlainToken(ts[i])
    ensures var u := NotifyUpdate(s, ItemLine(pos, ts));
      && u.Success? && u.value.event.pos == pos
      && Some(u.value.event.name) == PyIndex(s.items, pos - 1)
  {
    TokensOfItemLine(pos, ts);
    ParseIntRoundTrip(pos);
    assert Tokens(ItemLine(pos, ts))[0] == IntToString(pos);
  }

  /**
   With distinct field names the merged entry holds exactly the paired
   fields, each decoded against its cached value; a field sent as an empty
   token keeps that value, and a field beyond the token count is dropped.
   */
  lemma MergeEntryDistinct(fields: seq<string>, ts: seq<string>, prior: Entry)
    requires Distinct(fields)
    ensures var n := Paired(fields, ts);
      var e := MergeEntry(fields, ts, prior);
      && e.Keys == (set i | 0 <= i < n :: fields[i])
      && (forall i :: 0 <= i < n ==> e[fields[i]] == FieldCodec.Decode(ts[i], Previous(prior, fields[i])))
      && (forall i :: 0 <= i < n && ts[i] == "" ==> e[fields[i]] == Previous(prior, fields[i]))
      && (forall i :: n <= i < |fields| ==> fields[i] !in e)
  {
    var n := Paired(fields, ts);
    var e := MergeEntry(fields, ts, prior);
    assert forall i :: 0 <= i < n ==> LastCounted(fields, ts, n, i, false);
  }

  /**
   Default mode, for an item the subscription has (`1 <= pos <= |items|`):
   the update succeeds, the item's cache entry is replaced by the merged
   entry (see `MergeEntryDistinct`), other items' entries are untouched, and
   the event's values are the new entry.
   */
  lemma DefaultModeUpdate(s: Subscription, pos: int, ts: seq<string>)
    requires !s.newValuesOnly && 1 <= pos <= |s.items|
    requires forall i :: 0 <= i < |ts| ==> PlainToken(ts[i])
    ensures var r := NotifyUpdate(s, ItemLine(pos, ts));
      && r.Success?
      && r.value.event.pos == pos && r.value.event.name == s.items[pos - 1]
      && r.value.event.values == MergeEntry(s.fields, ts, Cached(s.cache, pos))
      && r.value.sub.cache.Keys == s.cache.Keys + {pos}
      && r.value.sub.cache[pos] == r.value.event.values
      && (forall p :: p in s.cache && p != pos ==> r.value.sub.cache[p] == s.cache[p])
      && r.value.sub.listeners == s.listeners
  {
    ItemLineUpdate(s, pos, ts);
    EntryReplaced(s, NotifyUpdate(s, ItemLine(pos, ts)), pos, s.items[pos - 1], MergeEntry(s.fields, ts, Cached(s.cache, pos)));
  }

  /** The shape of a default-mode result: the event's entry replaces the item's cached one, and nothing else changes. */
  lemma EntryReplaced(s: Subscription, r: Result<Updated, UpdateError>, pos: int, name: string, e: Entry)
    requires r == Success(Updated(s.(cache := s.cache[pos := e]), ItemEvent(pos, name, e)))
    ensures && r.Success?
      && r.value.event.pos == pos && r.value.event.name == name && r.value.event.values == e
      && r.value.sub.cache.Keys == s.cache.Keys + {pos}
      && r.value.sub.cache[pos] == e
      && (forall p :: p in s.cache && p != pos ==> r.value.sub.cache[p] == s.cache[p])
      && r.value.sub.listeners == s.listeners
  {
    assert s.cache[pos := e].Keys == s.cache.Keys + {pos};
  }

  /**
   "New values only" mode, for an item the subscription has and distinct
   field names: the event holds exactly the fields sent with a non-empty
   token, each with its raw token, and the cache is unchanged.
   */
  lemma NewValuesModeUpdate(s: Subscription, pos: int, ts: seq<string>)
    requires s.newValuesOnly && 1 <= pos <= |s.items| && Distinct(s.fields)
    requires forall i :: 0 <= i < |ts| ==> PlainToken(ts[i])
    ensures var r := NotifyUpdate(s, ItemLine(pos, ts));
      var n := Paired(s.fields, ts);
      && r.Success?
      && r.value.event.pos == pos && r.value.event.name == s.items[pos - 1]
      && r.value.event.values.Keys == (set i | 0 <= i < n && ts[i] != "" :: s.fields[i])
      && (forall i :: 0 <= i < n && ts[i] != "" ==> r.value.event.values[s.fields[i]] == Some(ts[i]))
      && r.value.sub == s
  {
    ItemLineUpdate(s, pos, ts);
    var n := Paired(s.fields, ts);
    assert forall i :: 0 <= i < n ==> LastCounted(s.fields, ts, n, i, true);
  }
}

=== FILE: text.dfy ===
/**
 The handful of Python `str` operations the client relies on: `rstrip`,
 `strip`, `startswith`, `split(sep)`, `split(sep, 1)`, `" ".join` and
 `int(...)` on decimal text.
 */
module Text {
  import opened Results

  /** The characters Python's `str.isspace` accepts, i.e. those `strip()` and `rstrip()` remove. */
  predicate IsSpace(c: char) {
    if c <= ' ' then ('\t' <= c <= '\r') || '\U{1c}' <= c
    else
      && '\U{85}' <= c
      && (|| c == '\U{85}' || c == '\U{a0}' || c == '\U{1680}'
          || ('\U{2000}' <= c <= '\U{200a}')
          || c == '\U{2028}' || c == '\U{2029}' || c == '\U{202f}' || c == '\U{205f}' || c == '\U{3000}')
  }

  /** The two characters `rstrip('\r\n')` removes. */
  predicate IsNewline(c: char) {
    c == '\r' || c == '\n'
  }

  /** `not s.strip()`: the text has nothing but whitespace in it. */
  predicate IsBlank(s: string) {
    forall i :: 0 <= i < |s| ==> IsSpace(s[i])
  }

  /** Which characters a strip removes: Python's whitespace (`strip()`, `rstrip()`) or only CR and LF (`rstrip('\r\n')`). */
  datatype Trim = Whitespace | LineEnd

  predicate Trims(t: Trim, c: char) {
    match t
    case Whitespace => IsSpace(c)
    case LineEnd => IsNewline(c)
  }

  /** Removes the longest suffix made of characters `strip` removes. */
  function RStripBy(s: string, strip: Trim): (r: string)
    ensures |r| <= |s| && r == s[..|r|]
    ensures r == [] || !Trims(strip, r[|r| - 1])
    ensures forall i :: |r| <= i < |s| ==> Trims(strip, s[i])
  {
    if |s| > 0 && Trims(strip, s[|s| - 1]) then RStripBy(s[..|s| - 1], strip) else s
  }

  /** The length of the longest prefix of `s` made of characters `strip` removes. */
  function Leading(s: string, strip: Trim): (n: nat)
    ensures n <= |s|
    ensures forall i :: 0 <= i < n ==> Trims(strip, s[i])
    ensures n == |s| || !Trims(strip, s[n])
  {
    if |s| > 0 && Trims(strip, s[0]) then 1 + Leading(s[1..], strip) else 0
  }

  /** Removes the longest prefix made of characters `strip` removes. */
  function LStripBy(s: string, strip: Trim): (r: string)
    ensures |r| <= |s| && r == s[|s| - |r|..]
    ensures r == [] || !Trims(strip, r[0])
    ensures forall i :: 0 <= i < |s| - |r| ==> Trims(strip, s[i])
  {
    s[Leading(s, strip)..]
  }

  /** Python's `s.rstrip()`. */
  function RStrip(s: string): (r: string) {
    RStripBy(s, Whitespace)
  }

  /** Python's `s.strip()`. */
  function Strip(s: string): (r: string) {
    LStripBy(RStripBy(s, Whitespace), Whitespace)
  }

  /** After `rstrip()`, a line is blank exactly when it is empty, and that happens exactly when the raw line was blank. */
  lemma RStripBlank(s: string)
    ensures IsBlank(RStrip(s)) <==> RStrip(s) == []
    ensures RStrip(s) == [] <==> IsBlank(s)
  {
    var r := RStrip(s);
    if r != [] {
      assert !IsSpace(r[|r| - 1]);
      assert s[|r| - 1] == r[|r| - 1];
    }
  }

  /** Stripping `tail` off `body + tail` gives back `body` when the tail is all strippable and `body` does not end in a strippable character. */
  lemma {:induction false} RStripByKeeps(body: string, tail: string, strip: Trim)
    requires body == [] || !Trims(strip, body[|body| - 1])
    requires forall i :: 0 <= i < |tail| ==> Trims(strip, tail[i])
    ensures RStripBy(body + tail, strip) == body
    decreases |tail|
  {
    if tail == [] {
      assert body + tail == body;
    } else {
      var s := body + tail;
      var shorter := tail[..|tail| - 1];
      assert s[|s| - 1] == tail[|tail| - 1];
      assert s[..|s| - 1] == body + shorter;
      RStripByKeeps(body, shorter, strip);
    }
  }

  /** Stripping the left of a text whose first character is not strippable changes nothing. */
  lemma LStripByKeeps(s: string, strip: Trim)
    requires s == [] || !Trims(strip, s[0])
    ensures LStripBy(s, strip) == s
  {
  }

  /** Python's `s.startswith(prefix)`. */
  predicate StartsWith(s: string, prefix: string) {
    |prefix| <= |s| && s[..|prefix|] == prefix
  }

  /** Position of the first occurrence of `c` in `s`, if any. */
  function IndexOf(s: string, c: char): (r: Option<nat>)
    ensures r.None? <==> c !in s
    ensures r.Some? ==> r.value < |s| && s[r.value] == c && c !in s[..r.value]
  {
    if |s| == 0 then None
    else if s[0] == c then Some(0)
    else
      match IndexOf(s[1..], c)
      case None => None
      case Some(i) =>
        assert s[..i + 1] == [s[0]] + s[1..][..i];
        Some(i + 1)
  }

  /**
   Python's `s.split(sep, 1)` for a one-character separator: `None` when the
   separator is absent (Python then returns the one-element list `[s]`),
   otherwise the text before and after its first occurrence.
   */
  function SplitOnce(s: string, sep: char): (r: Option<(string, string)>)
    ensures r.None? <==> sep !in s
    ensures r.Some? ==> sep !in r.value.0 && s == r.value.0 + [sep] + r.value.1
  {
    match IndexOf(s, sep)
    case None => None
    case Some(i) =>
      assert s == s[..i] + [sep] + s[i + 1..];
      Some((s[..i], s[i + 1..]))
  }

  /** Splitting `a + sep + b` once, where `a` has no separator, gives back `a` and `b`. */
  lemma SplitOnceJoin(a: string, sep: char, b: string)
    requires sep !in a
    ensures SplitOnce(a + [sep] + b, sep) == Some((a, b))
  {
    var s := a + [sep] + b;
    assert s[|a|] == sep;
    assert s[..|a|] == a;
    assert s[|a| + 1..] == b;
  }

  /** Python's `sep.join(parts)` for a one-character separator. */
  function Join(parts: seq<string>, sep: char): (r: string) {
    if |parts| == 0 then []
    else if |parts| == 1 then parts[0]
    else parts[0] + [sep] + Join(parts[1..], sep)
  }

  /** Python's `s.split(sep)` for a one-character separator. */
  function Split(s: string, sep: char): (r: seq<string>)
    ensures |r| >= 1
    ensures forall i :: 0 <= i < |r| ==> sep !in r[i]
    ensures Join(r, sep) == s
    decreases |s|
  {
    match SplitOnce(s, sep)
    case None => [s]
    case Some((a, b)) =>
      var rest := Split(b, sep);
      assert ([a] + rest)[1..] == rest;
      [a] + rest
  }

  /** Splitting a join of separator-free parts gives the parts back. */
  lemma {:induction false} SplitJoin(parts: seq<string>, sep: char)
    requires |parts| >= 1
    requires forall i :: 0 <= i < |parts| ==> sep !in parts[i]
    ensures Split(Join(parts, sep), sep) == parts
    decreases |parts|
  {
    if |parts| == 1 {
      assert sep !in parts[0];
    } else {
      var tail := parts[1..];
      assert sep !in parts[0];
      SplitOnceJoin(parts[0], sep, Join(tail, sep));
      SplitJoin(tail, sep);
      assert [parts[0]] + tail == parts;
    }
  }

  predicate IsDigit(c: char) {
    '0' <= c <= '9'
  }

  predicate AllDigits(s: string) {
    forall i :: 0 <= i < |s| ==> IsDigit(s[i])
  }

  function DigitValue(c: char): (d: nat)
    requires IsDigit(c)
    ensures d < 10
  {
    (c as int) - ('0' as int)
  }

  function DigitChar(d: nat): (c: char)
    requires d < 10
    ensures IsDigit(c) && DigitValue(c) == d
  {
    (('0' as int) + d) as char
  }

  /** The number a string of decimal digits denotes. */
  function DigitsValue(s: string): (r: nat)
    requires AllDigits(s)
  {
    if |s| == 0 then 0 else DigitsValue(s[..|s| - 1]) * 10 + DigitValue(s[|s| - 1])
  }

  /** Decimal rendering of a natural number, as Python's `str(n)`. */
  function NatToString(n: nat): (s: string)
    ensures |s| >= 1 && AllDigits(s)
  {
    if n < 10 then [DigitChar(n)] else NatToString(n / 10) + [DigitChar(n % 10)]
  }

  /** Decimal rendering of an integer, as Python's `str(n)`. */
  function IntToString(n: int): (r: string) {
    if n < 0 then "-" + NatToString(-n) else NatToString(n)
  }

  /**
   Python's `int(s)` on text: surrounding whitespace is ignored, then an
   optional sign and at least one decimal digit; anything else is the
   `ValueError` the caller sees as `None`.
   */
  function ParseInt(s: string): (r: Option<int>)
    ensures IsBlank(s) ==> r.None?
    ensures r.Some? ==> exists i :: 0 <= i < |s| && IsDigit(s[i])
    ensures r.Some? && r.value < 0 ==> '-' in s
  {
    StripWithin(s);
    ParseStripped(Strip(s))
  }

  /** `int(...)` once the surrounding whitespace is gone: an optional sign, then at least one digit. */
  function ParseStripped(t: string): (r: Option<int>)
    ensures r.Some? ==> |t| >= 1 && IsDigit(t[|t| - 1])
    ensures r.Some? && r.value < 0 ==> t[0] == '-'
  {
    var signed := |t| > 0 && (t[0] == '-' || t[0] == '+');
    var digits := if signed then t[1..] else t;
    if |digits| > 0 && AllDigits(digits) then
      var v: int := DigitsValue(digits);
      assert IsDigit(digits[|digits| - 1]);
      Some(if signed && t[0] == '-' then -v else v)
    else None
  }

  /** What `strip()` keeps is taken from the text, and nothing is kept of blank text. */
  lemma StripWithin(s: string)
    ensures forall i :: 0 <= i < |Strip(s)| ==> Strip(s)[i] in s
    ensures IsBlank(s) ==> Strip(s) == []
  {
    var a := RStripBy(s, Whitespace);
    var b := LStripBy(a, Whitespace);
    forall i | 0 <= i < |b|
      ensures b[i] in s
    {
      assert b[i] == a[|a| - |b| + i] == s[|a| - |b| + i];
    }
  }

  lemma {:induction false} DigitsValueOfNat(n: nat)
    ensures DigitsValue(NatToString(n)) == n
  {
    if n >= 10 {
      var s := NatToString(n);
      assert s[..|s| - 1] == NatToString(n / 10);
      DigitsValueOfNat(n / 10);
    }
  }

  /** The decimal rendering of an integer holds digits and at most a leading minus sign. */
  lemma IntToStringChars(n: int)
    ensures |IntToString(n)| >= 1
    ensures forall i :: 0 <= i < |IntToString(n)| ==> IsDigit(IntToString(n)[i]) || (i == 0 && IntToString(n)[i] == '-')
  {
  }

  /** `strip()` leaves a text alone when neither end is whitespace. */
  lemma StripKeeps(s: string)
    requires s == [] || (!IsSpace(s[0]) && !IsSpace(s[|s| - 1]))
    ensures Strip(s) == s
  {
    RStripByKeeps(s, [], Whitespace);
    assert s + [] == s;
    LStripByKeeps(s, Whitespace);
  }

  /** Text with no whitespace at either end is parsed as it stands. */
  lemma ParseIntUnstripped(s: string)
    requires |s| >= 1 && !IsSpace(s[0]) && !IsSpace(s[|s| - 1])
    ensures ParseInt(s) == ParseStripped(s)
  {
    StripKeeps(s);
  }

  /** A run of decimal digits parses as the number it denotes. */
  lemma ParseIntOfDigits(digits: string)
    requires |digits| >= 1 && AllDigits(digits)
    ensures ParseInt(digits) == Some(DigitsValue(digits) as int)
  {
    assert IsDigit(digits[0]) && IsDigit(digits[|digits| - 1]);
    ParseIntUnstripped(digits);
  }

  /** A minus sign followed by a run of decimal digits: `strip()` leaves it alone. */
  lemma NegativeUnstripped(digits: string)
    requires |digits| >= 1 && AllDigits(digits)
    ensures ParseInt("-" + digits) == ParseStripped("-" + digits)
  {
    var s := "-" + digits;
    assert s[0] == '-';
    assert s[|s| - 1] == digits[|digits| - 1] && IsDigit(digits[|digits| - 1]);
    ParseIntUnstripped(s);
  }

  /** A minus sign followed by a run of decimal digits: the sign is read, then the digits. */
  lemma NegativeDigits(digits: string)
    requires |digits| >= 1 && AllDigits(digits)
    ensures ParseStripped("-" + digits) == Some(-(DigitsValue(digits) as int))
  {
    var s := "-" + digits;
    assert s[1..] == digits;
  }

  /** A minus sign followed by a run of decimal digits parses as the negated number. */
  lemma ParseIntOfNegative(digits: string)
    requires |digits| >= 1 && AllDigits(digits)
    ensures ParseInt("-" + digits) == Some(-(DigitsValue(digits) as int))
  {
    NegativeUnstripped(digits);
    NegativeDigits(digits);
  }

  /** `int(str(n)) == n`: parsing the decimal rendering of any integer gives it back. */
  lemma ParseIntRoundTrip(n: int)
    ensures ParseInt(IntToString(n)) == Some(n)
  {
    if n < 0 {
      NegativeRoundTrip(-n);
    } else {
      NaturalRoundTrip(n);
    }
  }

  lemma NaturalRoundTrip(n: nat)
    ensures ParseInt(IntToString(n)) == Some(n)
  {
    var d := NatToString(n);
    assert IntToString(n) == d;
    DigitsValueOfNat(n);
    ParseIntOfDigits(d);
  }

  lemma NegativeRoundTrip(m: nat)
    requires m > 0
    ensures ParseInt(IntToString(-(m as int))) == Some(-(m as int))
  {
    var d := NatToString(m);
    assert IntToString(-(m as int)) == "-" + d;
    DigitsValueOfNat(m);
    ParseIntOfNegative(d);
  }
}
